=== FILE: README.md ===
# Open Website Status backend: dispatcher and event router

This project models the core of the open-website-status backend in Dafny. A caller
submits a query, which is a URL to probe. The dispatcher stores the query and fans it
out as one `dispatched` job to every provider connected at that moment. Providers then
report back with `accept-job`, `reject-job`, `cancel-job` and `complete-job`. When a
provider disconnects, the dispatcher recovers that provider's unfinished jobs. Every
job change is broadcast to the topics `queries/<id>`, `jobs/<id>` and
`hostnames/<hostname>`. Through the API socket a caller can join `queries/<id>` (when it
submits or looks up a query) and `hostnames/<hostname>` (when it lists a hostname's
queries). No handler joins a socket to `jobs/<id>`, so broadcasts to that topic reach
nobody.

Modules:

- `Results`: `Option` and `Result`. An `Err` carries the message of the error the
  source throws.
- `Json`: the values a socket delivers. It includes `Extends` ("has at least these
  properties"), which is the acceptance rule of an io-ts `t.type`.
- `Jobs`: the five job states, with the fields each state carries, and the three kinds
  of job result.
- `Records`: providers, API clients and stored queries.
- `Transitions`: how accept, reject, cancel, complete and disconnect recovery rebuild a
  job. This includes the two state guards the source has. The module also relates
  these rebuilds to the intended state machine.
- `Schemas`: the request schemas, each with a decoder and an iff lemma that says
  exactly which payloads it accepts.
- `Dispatcher`: the registry of provider connections, the store, the provider actions
  with their error order, disconnect recovery, and query fan-out.
- `ApiManager`: topic names, who receives each broadcast, the wire form of a job, and
  the four caller-facing handlers with the topics they let a socket join.
- `ProviderManager`: the provider handshake, the four provider events with their
  acknowledgement rule, and the `dispatch-job` message.

Inputs the source obtains from its environment are parameters of the model:

- the clock (`now`);
- fresh ObjectIds (`queryId`, `jobIds`, `newId`);
- the geolocation of a provider's address (`ipInfo: Result<IpInfo>`);
- the outcome of the reCAPTCHA check (`captcha: Result<bool>`: an error when the check
  could not run, otherwise its verdict);
- the dispatcher callbacks handed to the API manager (function-typed parameters).

The database is a set of maps in `Store`. Instead of calling the socket layer,
operations return the effects they announce (`JobCreated`, `JobModified`,
`JobDispatched`) as values.

The job lifecycle the job states suggest (`Transitions.LifecycleAllows`: `dispatched` may
be accepted or rejected, `accepted` may be canceled or completed, `canceled` may still be
completed, `rejected` and `completed` are final) is not what the code enforces.
`acceptJob` and `rejectJob` check no job state, so a provider can accept a completed job
or reject a canceled one. Only `cancelJob` (which requires `accepted`) and `completeJob`
(which requires `accepted` or `canceled`) are guarded. The model follows the code.
`Transitions.GuardedActionsMatchLifecycle` and `Transitions.UnguardedActionsExceedLifecycle`
state both halves.

Separately, the program's modules disagree with one another about queries:

- The request schemas name the URL fields `host` and `path`, while the dispatcher reads
  `hostname`, `pathname`, `port` and `search`.
- The stored query's protocol is `'http:'`, while the schemas use `'http'`.
- The API manager generates a query id, joins the caller to that id's topic and passes
  the id to the dispatcher, whose dispatch functions take no id and generate another.

The model keeps the schemas as written. It treats the dispatcher's input as a separate
`QueryRequest` carrying the URL parts, and it uses the handler's query id as the id of
the stored query. The protocol is one `Protocol` value and is rendered `"http"`/`"https"`.

`EmitQueryCreate` and `EmitJobList` model API manager broadcasts that nothing in this
core calls. The dispatcher never announces a new query, and the job lists a caller
receives are sent to its own socket by the handlers.

## Model

| member | source | states |
|---|---|---|
| Jobs.AcceptTime | src/database/types/jobs.ts:15-65 | exactly the accepted, canceled and completed states carry an accept timestamp |
| Jobs.StateTagDiscriminates | src/database/types/jobs.ts:15-65 | the `jobState` string determines which of the five job variants a job is |
| Jobs.ResultTagDiscriminates | src/database/types/jobs.ts:35-56 | the `state` string determines which of the three result variants a result is |
| Transitions.Rebuild | src/dispatcher/index.ts:138-148 | a rebuilt job keeps id, provider, query, dispatch time and geolocation, and takes the new state |
| Transitions.Accept | src/dispatcher/index.ts:134-149 | accepting keeps the base fields and records `now` as the accept time |
| Transitions.Reject | src/dispatcher/index.ts:151-166 | rejecting keeps the base fields, records `now` and drops any accept time |
| Transitions.Cancel | src/dispatcher/index.ts:168-188 | cancel succeeds iff the job is accepted; it keeps the accept time and records `now`; otherwise it fails with "Job state is not accepted" |
| Transitions.Complete | src/dispatcher/index.ts:190-211 | complete succeeds iff the job is accepted or canceled; it keeps the accept time and stores `now` and the result; otherwise it fails with "Job state is not accepted or canceled" |
| Transitions.Recover | src/dispatcher/index.ts:80-107 | on disconnect an accepted job becomes canceled (keeping its accept time), a dispatched one becomes rejected, and any other job is left alone |
| Transitions.Apply | src/dispatcher/index.ts:134-211 | every provider action keeps the job's base fields |
| Transitions.GuardedActionsMatchLifecycle | src/dispatcher/index.ts:172-174 | cancel and complete succeed exactly in the states the intended lifecycle (`LifecycleAllows`) allows them from |
| Transitions.UnguardedActionsExceedLifecycle | src/dispatcher/index.ts:134-166 | accept and reject succeed in every state, including states the intended lifecycle does not allow them from |
| Transitions.ActionsNeverReenterDispatched | src/dispatcher/index.ts:134-211 | no action or recovery leads back to `dispatched`, and each successful action lands in its own state (accept in `accepted`, reject in `rejected`, and so on) |
| Transitions.NoCompletionWithoutAcceptance | src/dispatcher/index.ts:194-196 | a dispatched, rejected or completed job cannot be completed |
| Transitions.RecoveryMatchesLifecycle | src/dispatcher/index.ts:81-106 | recovering a dispatched job is a reject at `now`, and recovering an accepted job is a cancel at `now`; both are moves the intended lifecycle allows |
| Schemas.DecodeProtocol | src/dispatcher/types/index.ts:25 | the protocol union accepts exactly the strings "http" and "https" |
| Schemas.EncodeJobResult | src/database/types/jobs.ts:35-54 | every encoded result is an object whose `state` names its variant |
| Schemas.DecodeJobResultExact | src/database/types/jobs.ts:35-54 | the result union decodes a value to r iff the value extends r's encoding |
| Schemas.DecodeApiQueryExact | src/dispatcher/types/index.ts:23-28 | the API query schema decodes a payload to m iff the payload extends m's encoding |
| Schemas.DecodeWebsiteQueryExact | src/dispatcher/types/index.ts:32-37 | the website query schema decodes a payload to m iff the payload extends m's encoding |
| Schemas.ApiQueryIsWebsiteQuery | src/dispatcher/types/index.ts:23-37 | every payload the API schema accepts is also accepted by the website schema, with the same protocol, host and path |
| Schemas.DecodeStringFieldExact | src/dispatcher/types/index.ts:41-57 | a one-string schema (`queryId`, `jobId`) decodes to s iff the payload extends `{key: s}` |
| Schemas.DecodeCompleteExact | src/dispatcher/types/index.ts:59-62 | the complete-job schema decodes a payload to m iff the payload is an object with a string `jobId` and a `result` that extends m.result's encoding |
| Schemas.ProviderMessagesRoundTrip | src/dispatcher/types/index.ts:47-62 | encoding a provider message and decoding it gives back the same message |
| Dispatcher.ValidConnectionsHaveDistinctProviders | src/dispatcher/index.ts:49-52 | under the full dispatcher invariant (at most one connection per token, every connection carrying the store's current record for its token, providers stored under their own token with distinct ids), no provider is connected twice |
| Dispatcher.FirstSocketIndex | src/dispatcher/index.ts:75 | finds the first connection on the socket, or -1 when there is none |
| Dispatcher.FindBySocket | src/dispatcher/index.ts:75 | finds a connection iff the socket is registered, and that connection is on the socket |
| Dispatcher.RemoveSocket | src/dispatcher/index.ts:76 | keeps exactly the connections on other sockets, so the socket is no longer registered |
| Dispatcher.RemoveSocketDistributes | src/dispatcher/index.ts:76 | the filter works element by element, over concatenation |
| Dispatcher.RemoveSocketKeepsOthers | src/dispatcher/index.ts:76 | removing an unregistered socket leaves the registry unchanged |
| Dispatcher.RemoveSocketKeepsUniqueTokens | src/dispatcher/index.ts:76 | removing a socket preserves one-connection-per-token |
| Dispatcher.InitProvider | src/dispatcher/index.ts:49-72 | the handshake is refused first for a token already connected, then for an unknown token, then for a failed geolocation, which reports the geolocation's own error; on success it appends exactly one connection with the stored provider and geolocation, and changes nothing else |
| Dispatcher.InitProviderKeepsValid | src/dispatcher/index.ts:49-72 | a successful handshake preserves the registry invariant (one connection per token, each connection's provider taken from the store) |
| Dispatcher.DuplicateTokenRefused | src/dispatcher/index.ts:50-52 | once a token is connected, a second handshake with it fails with "This provider has already been initialized" |
| Dispatcher.ReconnectAfterDisconnect | src/dispatcher/index.ts:74-76 | after its socket disconnects, a provider can connect again with the same token |
| Dispatcher.GetProviderConnection | src/dispatcher/index.ts:114-120 | succeeds iff the socket is registered, returning its connection; otherwise fails with "Provider not connected" |
| Dispatcher.GetAndVerifyJob | src/dispatcher/index.ts:122-132 | succeeds iff the job exists and belongs to the connection's provider; otherwise fails with "Job not found" or "Job assigned to a different provider" |
| Dispatcher.ReplaceJob | src/dispatcher/index.ts:299-302 | replacing a job changes only the entry under its id |
| Dispatcher.RunAction | src/dispatcher/index.ts:134-211 | errors come in the source's order (connection, job existence, ownership, state); success implies the socket's provider owns the job; only that job changes, becoming the rebuilt job, and exactly one modification is announced |
| Dispatcher.RunActionKeepsValid | src/dispatcher/index.ts:134-211 | every successful provider action preserves the dispatcher invariant |
| Dispatcher.AcceptJob | src/dispatcher/index.ts:134-149 | succeeds iff the socket's provider owns the job, whatever its state; the job becomes accepted at `now` |
| Dispatcher.RejectJob | src/dispatcher/index.ts:151-166 | succeeds iff the socket's provider owns the job, whatever its state; the job becomes rejected at `now` |
| Dispatcher.CancelJob | src/dispatcher/index.ts:168-188 | succeeds iff the provider owns the job and the job is accepted; the job becomes canceled, keeping its accept time |
| Dispatcher.CompleteJob | src/dispatcher/index.ts:190-211 | succeeds iff the provider owns the job and the job is accepted or canceled; the job becomes completed with the submitted result |
| Dispatcher.OtherProvidersCannotTouchJob | src/dispatcher/index.ts:128-130 | a connected provider that does not own a job gets "Job assigned to a different provider" for every action |
| Dispatcher.RecoverJobs | src/dispatcher/index.ts:79-107 | recovers exactly the given provider's jobs, leaves every other job unchanged, and announces each changed job exactly once |
| Dispatcher.OnDisconnect | src/dispatcher/index.ts:74-112 | the socket leaves the registry; an unregistered socket changes nothing else; the disconnected provider's accepted jobs become canceled and its dispatched jobs rejected; other jobs and store parts are unchanged; each change is announced once; the invariant is preserved |
| Dispatcher.GetQuery | src/dispatcher/index.ts:280-292 | succeeds iff the query is stored, returning its id, time and URL parts; otherwise fails with "Query not found" |
| Dispatcher.FanOutStep | src/dispatcher/index.ts:252-267 | handing the query to one more connection adds exactly that connection's dispatched job, keeps every earlier job, and appends its creation followed by its hand-off to the connection's socket |
| Dispatcher.DispatchQuery | src/dispatcher/index.ts:249-278 | stores the query under its id and fans it out: the registry, providers and clients are unchanged, every old job is kept, connection k gets exactly one new dispatched job (its provider id and geolocation, time `now`), the effects are each job's creation then its hand-off to that socket, in connection order, and no other job appears; the result is what GetQuery later returns; the dispatcher invariant is preserved |
| Dispatcher.DispatchedJobsHaveDistinctProviders | src/dispatcher/index.ts:252-263 | under the dispatcher invariant, no provider receives two jobs of the same query |
| Dispatcher.DispatchApiQuery | src/dispatcher/index.ts:214-230 | an unknown API token fails with "Invalid token" and changes nothing; success iff the token names a client, and then the stored query is the request's URL parts with time `now` and that client's id, fanned out exactly as DispatchQuery does; the result is the stored query's message; the invariant is preserved |
| Dispatcher.DispatchWebsiteQuery | src/dispatcher/index.ts:232-247 | a captcha check that could not run fails with its own error, and a negative verdict with "Captcha verification failed", both changing nothing; success iff the verdict is positive, and then the stored query is the request's URL parts with time `now` and no client, fanned out exactly as DispatchQuery does; the result is the stored query's message; the invariant is preserved |
| ApiManager.TopicsAreUnambiguous | src/socket-manager/api-manager.ts:228-263 | query, job and hostname topics never collide, and each topic determines its id |
| ApiManager.Join | src/socket-manager/api-manager.ts:95-97 | joining adds exactly one (socket, topic) membership |
| ApiManager.Delivered | src/socket-manager/api-manager.ts:228-263 | a socket receives a broadcast message iff it has joined that broadcast's topic |
| ApiManager.GetJobMessage | src/socket-manager/api-manager.ts:181-226 | the job message has the base keys, plus `jobState` and exactly the timestamps and result of the job's state, each holding the job's value |
| ApiManager.JobMessageRoundTrip | src/socket-manager/api-manager.ts:181-226 | reading a job message back, together with the provider id it omits, gives the original job |
| ApiManager.StateRoundTrip | src/socket-manager/api-manager.ts:188-225 | the state part of a job message (`jobState`, its timestamps and result) reads back to the job's state |
| ApiManager.JobListRoundTrip | src/socket-manager/api-manager.ts:256-263 | every job in a `job-list` payload reads back to the original job |
| ApiManager.JobEvent | src/socket-manager/api-manager.ts:228-240 | a job event goes to the job's query topic, its job topic and the hostname topic, with the same message on all three |
| ApiManager.EmitJobCreate | src/socket-manager/api-manager.ts:228-233 | `job-create` carries the job's message to its query, job and hostname topics, one emission each |
| ApiManager.EmitJobModify | src/socket-manager/api-manager.ts:235-240 | `job-modify` carries the job's message to its query, job and hostname topics, one emission each |
| ApiManager.EmitJobDelete | src/socket-manager/api-manager.ts:242-250 | `job-delete` carries the job and query ids to those topics and the hostname topic, one emission each |
| ApiManager.EmitQueryCreate | src/socket-manager/api-manager.ts:252-254 | `query-create` goes to the query's hostname topic only, in one emission |
| ApiManager.EmitJobList | src/socket-manager/api-manager.ts:256-263 | `job-list` goes to the query topic and the hostname topic only, one emission each |
| ApiManager.JobEventRecipients | src/socket-manager/api-manager.ts:235-240 | a socket receives a job event iff it has joined the job's query, the job or the hostname |
| ApiManager.QueryCreateStaysWithinHostname | src/socket-manager/api-manager.ts:252-254 | a socket watching one hostname receives `query-create` exactly for queries of that hostname |
| ApiManager.OverlappingTopicsDuplicate | src/socket-manager/api-manager.ts:235-240 | a socket in both the query topic and the hostname topic receives each job event twice |
| ApiManager.QueryAck | src/socket-manager/api-manager.ts:98-102 | the acknowledgement carries null and the query on success, and the error message and null on failure |
| ApiManager.OnWebsiteQuery | src/socket-manager/api-manager.ts:89-106 | a payload failing the schema is refused without dispatching; otherwise the socket joins the new query's topic if it asked to, whatever the dispatch outcome, and the acknowledgement reports that outcome |
| ApiManager.OnApiQuery | src/socket-manager/api-manager.ts:108-125 | as `query-website`, under the API schema |
| ApiManager.OnGetQuery | src/socket-manager/api-manager.ts:127-149 | the socket joins the query topic only if the query was found and the socket asked to; on success it receives exactly the query's job list and the acknowledgement carries the query |
| ApiManager.JobLists | src/socket-manager/api-manager.ts:160-167 | no error iff every query's jobs were read, and then one job list per query, in order, each the query's jobs and id; otherwise the error is that of the first query whose lookup failed |
| ApiManager.JobListsOfReadQueries | src/socket-manager/api-manager.ts:160-167 | whatever fails, the lists produced are the job lists of exactly the queries whose jobs were read, each once and in the queries' order |
| ApiManager.OnGetHostnameQueries | src/socket-manager/api-manager.ts:151-179 | a payload without a string `hostname` is refused; a failed hostname lookup reports its error and sends nothing; otherwise the socket joins the hostname topic iff it asked to, it is sent exactly the lists JobLists produces (the lists of the queries whose jobs were read), and the acknowledgement carries JobLists' error, or on success the hostname and its queries |
| ApiManager.SchemaRejectionIgnoresDispatcher | src/socket-manager/api-manager.ts:89-91 | the outcome for a payload that fails its schema does not depend on the dispatcher |
| ApiManager.SubmitterSeesItsJobs | src/socket-manager/api-manager.ts:89-106 | a caller that submits with `subscribe` receives every job event of its query |
| ProviderManager.InitMiddleware | src/socket-manager/provider-manager.ts:143-157 | a handshake without a string token is refused with "Query params does not match schema"; otherwise the outcome is the dispatcher's handshake outcome |
| ProviderManager.HandshakesKeepOneConnectionPerToken | src/socket-manager/provider-manager.ts:143-157 | an accepted handshake keeps the invariant, and a second handshake with the same token is refused |
| ProviderManager.ParseRequest | src/socket-manager/provider-manager.ts:68-126 | each event accepts exactly the payloads its schema accepts, and asks for that event's action on the payload's `jobId` (with the decoded result for `complete-job`) |
| ProviderManager.Acknowledged | src/socket-manager/provider-manager.ts:72-78 | the acknowledgement is null iff the operation succeeded; on failure it carries the error message and nothing changes |
| ProviderManager.OnProviderEvent | src/socket-manager/provider-manager.ts:68-126 | a payload failing its schema is refused with "Request does not match schema" and nothing changes; otherwise each event runs its own dispatcher operation with the same socket and job id |
| ProviderManager.NullAckMeansOwnedJob | src/socket-manager/provider-manager.ts:68-126 | a null acknowledgement means the socket's provider owns the job and only that job changed |
| ProviderManager.CompletedResultReachesCallers | src/socket-manager/provider-manager.ts:113-126 | after an acknowledged `complete-job`, the job is completed with the decoded result, and its broadcast message carries exactly that result's encoding, which decodes back to it |
| ProviderManager.DispatchJobMessage | src/socket-manager/provider-manager.ts:130-141 | the `dispatch-job` message has exactly the job id, query id and URL-part keys |
| ProviderManager.DispatchJobMessageRoundTrip | src/socket-manager/provider-manager.ts:130-141 | a provider reading the message recovers the job id, query id and every URL part unchanged |

## Left out

- Socket.IO transport, connection events and the `disconnect` re-emission are left out. Handlers are modelled as functions from the current state and the decoded payload to the next state, the acknowledgement and the messages sent.
- MongoDB is left out. The store is a set of maps, and database failures are not modelled, except where the API manager's callbacks return `Result`.
- `getIPInfo`, reCAPTCHA verification, Firebase and the console manager are left out. Geolocation and the outcome of the captcha check (its error or its verdict) are inputs; the console is outside this core.
- `safeEmptyCallback`/`safeDataCallback` are left out. An acknowledgement is modelled as the value passed to the callback. The case where the caller passed no callback function is not modelled.
- `console.log`/`console.error` logging is left out.
- Dispatcher.OnDisconnect: the source rewrites the jobs concurrently with `Promise.all`, with one `new Date()` per job. It also swallows a database error after some rewrites. The model rewrites them one at a time with a single `now`, and has no database error.
- Dispatcher.DispatchQuery: jobs are created concurrently in the source, and every job takes its own `new Date()`. The model uses one `now` for the query and all its jobs, in connection order.
- Handlers are modelled as running atomically, one after another. In the source every handler awaits the database between its reads and its writes, so handlers interleave. For example, `acceptJob` reads the job (src/dispatcher/index.ts:136) and writes it back (:138); a disconnect of the same provider (:74-107) can run in between, recover the job, and then have it overwritten as accepted, leaving an accepted job whose provider is gone. Such interleavings are not modelled.
- Provider records are assumed fixed while their providers are connected: the dispatcher invariant requires each connection's cached provider to be the store's record for its token. The program can rotate a provider's token (`reset-provider-token`, src/socket-manager/console-manager.ts:114-119), which is not modelled. After a rotation the duplicate check at src/dispatcher/index.ts:50, which compares cached tokens, lets the same provider connect again under its new token while the old connection stays registered. `dispatchQuery` then gives that provider two jobs of one query, and a disconnect of either socket recovers the jobs of both connections. Dispatcher.ValidConnectionsHaveDistinctProviders and Dispatcher.DispatchedJobsHaveDistinctProviders hold only under this assumption.
- Dispatcher.InitProvider: the source checks for a duplicate token before two awaits. Two handshakes with the same token that interleave could therefore both pass the check. The model runs each handshake atomically, so this race is not modelled.
- The dispatcher's `removeJob` is left out, because nothing in this core calls it. `EmitJobDelete` models only the message it would broadcast and that message's topics.
- `emitConnectedProvidersCount` and the count sent on connection are left out, as are the connection counting itself and the console's use of it.
- ISO-8601 formatting of timestamps is left out. Timestamps are integers and serialise as numbers.
- ObjectId parsing is left out. An ObjectId is its canonical lower-case hex string, and lookups compare ids exactly. The program parses a caller's id with `new ObjectId(string)` (src/database/index.ts:79-81), which throws on a malformed id (not modelled) and also accepts spellings the model treats as unknown: upper- or mixed-case hex, and any 12-character string. Given such a spelling of an existing id:
  - `getAndVerifyJob` (src/dispatcher/index.ts:123) finds the job, where the model answers "Job not found".
  - `getQuery` (src/dispatcher/index.ts:281-283) finds the query and returns the id in the caller's spelling, where the model answers "Query not found".
  - `get-query` (src/socket-manager/api-manager.ts:127-149) acknowledges the query, sends its job list and joins the caller to `queries/<id>` in the caller's spelling. Job events go to the canonical topic (src/socket-manager/api-manager.ts:230), so that subscriber never receives them. The model refuses the request, joins nothing and sends nothing.
- Numbers are modelled as integers. io-ts `t.number` also accepts fractions, NaN and infinities.
- ApiManager.OnGetHostnameQueries: the API manager imports the `get-hostname-queries` schema from the dispatcher's type module, which does not define it, so the payload is modelled as a single string `hostname`. The source runs the job lookups concurrently, and its error is the first rejection in time. Each `job-list` is emitted as its lookup resolves, so the lists arrive in completion order, and lists of lookups that resolve after the first rejection are still emitted. The model reports the failure of the first failing query in list order, and sends the job lists of every query whose jobs were read, in list order.
- Schemas.DecodeJobResultExact: io-ts keeps extra properties of a validated value. The model's decoded `JobResult` drops them, so a stored result never carries them.
- Parts the model does not cover:
  - The `subscribe` flag is not in the shown schemas. It is read from the raw payload with JavaScript truthiness.
  - The website captcha response field is not in the shown schema either.
  - The code that turns a schema-checked request into the dispatcher's `QueryRequest` is not part of this model. The handlers receive the dispatcher as a callback.

=== FILE: api_manager.dfy ===
/** The caller-facing side: the wire form of a job, the topics each broadcast goes to,
    who receives it, and the four inbound handlers with the topics they let a socket
    join. The dispatcher functions the handlers call are parameters, as they are
    callbacks handed to the manager when it is built. */
module ApiManager {
  import opened Results
  import opened Json
  import opened Jobs
  import opened Records
  import opened Schemas
  import opened Dispatcher

  /** The topics each socket has joined. */
  type Membership = map<SocketId, set<string>>

  /** A named event with its payload. */
  datatype Message = Message(event: string, payload: Json)

  /** A message broadcast to every socket in a topic. */
  datatype Emission = Emission(topic: string, message: Message)

  /** An acknowledgement: an error message or `null`, and data or `null`. */
  datatype Ack = Ack(error: Option<string>, data: Option<Json>)

  /** What a handler leaves behind: the memberships, its acknowledgement and the
      messages sent to the requesting socket alone. */
  datatype Handled = Handled(membership: Membership, ack: Ack, sent: seq<Message>)

  // ---------------------------------------------------------------- topics

  function QueryTopic(queryId: ObjectId): string { "queries/" + queryId }

  function JobTopic(jobId: ObjectId): string { "jobs/" + jobId }

  function HostnameTopic(hostname: string): string { "hostnames/" + hostname }

  lemma PrefixCancels(p: string, a: string, b: string)
    ensures p + a == p + b <==> a == b
  {
    if p + a == p + b {
      assert a == (p + a)[|p|..];
      assert b == (p + b)[|p|..];
    }
  }

  /** Topic names never collide: each kind is told apart by its first letter, and
      within a kind the name determines the id. */
  lemma TopicsAreUnambiguous(a: string, b: string)
    ensures QueryTopic(a) == QueryTopic(b) <==> a == b
    ensures JobTopic(a) == JobTopic(b) <==> a == b
    ensures HostnameTopic(a) == HostnameTopic(b) <==> a == b
    ensures QueryTopic(a) != JobTopic(b) && QueryTopic(a) != HostnameTopic(b) && JobTopic(a) != HostnameTopic(b)
  {
    PrefixCancels("queries/", a, b);
    PrefixCancels("jobs/", a, b);
    PrefixCancels("hostnames/", a, b);
    assert QueryTopic(a)[0] == 'q' && JobTopic(b)[0] == 'j' && HostnameTopic(b)[0] == 'h';
    assert JobTopic(a)[0] == 'j';
  }

  predicate Subscribed(m: Membership, socket: SocketId, topic: string) {
    socket in m && topic in m[socket]
  }

  /** `socket.join(topic)`. */
  function Join(m: Membership, socket: SocketId, topic: string): (r: Membership)
    ensures forall s, t :: Subscribed(r, s, t) <==> Subscribed(m, s, t) || (s == socket && t == topic)
  {
    m[socket := (if socket in m then m[socket] else {}) + {topic}]
  }

  /** The broadcasts `socket` receives, in order. */
  function Delivered(m: Membership, socket: SocketId, es: seq<Emission>): (r: seq<Message>)
    ensures |r| <= |es|
    ensures forall msg :: msg in r <==> exists e :: e in es && e.message == msg && Subscribed(m, socket, e.topic)
  {
    if |es| == 0 then []
    else
      var rest := Delivered(m, socket, es[1..]);
      assert forall e :: e in es[1..] ==> e in es;
      assert forall e :: e in es ==> e == es[0] || e in es[1..];
      if Subscribed(m, socket, es[0].topic) then [es[0].message] + rest else rest
  }

  // ------------------------------------------------------------ wire forms

  function TimestampJson(t: Timestamp): Json { JNum(t) }

  function PortJson(port: Option<int>): Json {
    match port
    case Some(p) => JNum(p)
    case None => JNull
  }

  const BaseMessageKeys: set<string> := {"id", "queryId", "dispatchTimestamp", "countryCode", "regionCode", "ispName"}

  /** The properties a job message adds for each state. */
  function StateMessageKeys(s: JobState): set<string> {
    match s
    case Dispatched => {}
    case Accepted(_) => {"acceptTimestamp"}
    case Rejected(_) => {"rejectTimestamp"}
    case Canceled(_, _) => {"acceptTimestamp", "cancelTimestamp"}
    case Completed(_, _, _) => {"acceptTimestamp", "completeTimestamp", "result"}
  }

  /** The job as sent to callers: the base fields without the provider, the state tag,
      and the fields of that state only. */
  function GetJobMessage(job: Job): (r: Json)
    ensures r.JObj?
    ensures r.fields.Keys == BaseMessageKeys + {"jobState"} + StateMessageKeys(job.state)
    ensures r.fields["id"] == JStr(job.id) && r.fields["queryId"] == JStr(job.queryId)
    ensures r.fields["dispatchTimestamp"] == TimestampJson(job.dispatchTimestamp)
    ensures r.fields["countryCode"] == JStr(job.countryCode) && r.fields["regionCode"] == JStr(job.regionCode)
    ensures r.fields["ispName"] == JStr(job.ispName)
    ensures r.fields["jobState"] == JStr(StateTag(job.state))
    ensures AcceptTime(job.state).Some? ==> r.fields["acceptTimestamp"] == TimestampJson(AcceptTime(job.state).value)
    ensures job.state.Rejected? ==> r.fields["rejectTimestamp"] == TimestampJson(job.state.rejectTimestamp)
    ensures job.state.Canceled? ==> r.fields["cancelTimestamp"] == TimestampJson(job.state.cancelTimestamp)
    ensures job.state.Completed? ==> r.fields["completeTimestamp"] == TimestampJson(job.state.completeTimestamp)
    ensures job.state.Completed? ==> r.fields["result"] == EncodeJobResult(job.state.result)
  {
    var base := map[
      "id" := JStr(job.id),
      "queryId" := JStr(job.queryId),
      "dispatchTimestamp" := TimestampJson(job.dispatchTimestamp),
      "countryCode" := JStr(job.countryCode),
      "regionCode" := JStr(job.regionCode),
      "ispName" := JStr(job.ispName),
      "jobState" := JStr(StateTag(job.state))];
    match job.state
    case Dispatched => JObj(base)
    case Accepted(a) => JObj(base["acceptTimestamp" := TimestampJson(a)])
    case Rejected(t) => JObj(base["rejectTimestamp" := TimestampJson(t)])
    case Canceled(a, c) =>
      JObj(base["acceptTimestamp" := TimestampJson(a)]["cancelTimestamp" := TimestampJson(c)])
    case Completed(a, c, result) =>
      JObj(base["acceptTimestamp" := TimestampJson(a)]["completeTimestamp" := TimestampJson(c)]
               ["result" := EncodeJobResult(result)])
  }

  function DecodeState(v: Json, tag: string): Option<JobState> {
    if tag == "dispatched" then Some(Dispatched)
    else if tag == "accepted" then
      var a :- GetNumber(v, "acceptTimestamp");
      Some(Accepted(a))
    else if tag == "rejected" then
      var t :- GetNumber(v, "rejectTimestamp");
      Some(Rejected(t))
    else if tag == "canceled" then
      var a :- GetNumber(v, "acceptTimestamp");
      var c :- GetNumber(v, "cancelTimestamp");
      Some(Canceled(a, c))
    else if tag == "completed" then
      var a :- GetNumber(v, "acceptTimestamp");
      var c :- GetNumber(v, "completeTimestamp");
      var result :- Get(v, "result");
      var r :- DecodeJobResult(result);
      Some(Completed(a, c, r))
    else None
  }

  /** Reads a job message back; the provider is not part of the message. */
  function DecodeJobMessage(v: Json, providerId: ObjectId): Option<Job> {
    var id :- GetString(v, "id");
    var queryId :- GetString(v, "queryId");
    var dispatchTimestamp :- GetNumber(v, "dispatchTimestamp");
    var countryCode :- GetString(v, "countryCode");
    var regionCode :- GetString(v, "regionCode");
    var ispName :- GetString(v, "ispName");
    var tag :- GetString(v, "jobState");
    var state :- DecodeState(v, tag);
    Some(Job(id, providerId, queryId, dispatchTimestamp, countryCode, regionCode, ispName, state))
  }

  /** The job message loses nothing but the provider id: reading it back gives the job,
      its result included. */
  lemma JobMessageRoundTrip(job: Job)
    ensures DecodeJobMessage(GetJobMessage(job), job.providerId) == Some(job)
  {
    var v := GetJobMessage(job);
    assert GetString(v, "id") == Some(job.id);
    assert GetString(v, "queryId") == Some(job.queryId);
    assert GetNumber(v, "dispatchTimestamp") == Some(job.dispatchTimestamp);
    assert GetString(v, "countryCode") == Some(job.countryCode);
    assert GetString(v, "regionCode") == Some(job.regionCode);
    assert GetString(v, "ispName") == Some(job.ispName);
    assert GetString(v, "jobState") == Some(StateTag(job.state));
    StateRoundTrip(job);
  }

  /** The state part of a job message reads back to the job's state. */
  lemma StateRoundTrip(job: Job)
    ensures DecodeState(GetJobMessage(job), StateTag(job.state)) == Some(job.state)
  {
    match job.state
    case Dispatched =>
    case Accepted(_) => AcceptedRoundTrip(job);
    case Rejected(_) => RejectedRoundTrip(job);
    case Canceled(_, _) => CanceledRoundTrip(job);
    case Completed(_, _, _) => CompletedRoundTrip(job);
  }

  lemma AcceptedRoundTrip(job: Job)
    requires job.state.Accepted?
    ensures DecodeState(GetJobMessage(job), "accepted") == Some(job.state)
  {
    assert GetNumber(GetJobMessage(job), "acceptTimestamp") == Some(job.state.acceptTimestamp);
  }

  lemma RejectedRoundTrip(job: Job)
    requires job.state.Rejected?
    ensures DecodeState(GetJobMessage(job), "rejected") == Some(job.state)
  {
    assert GetNumber(GetJobMessage(job), "rejectTimestamp") == Some(job.state.rejectTimestamp);
  }

  lemma CanceledRoundTrip(job: Job)
    requires job.state.Canceled?
    ensures DecodeState(GetJobMessage(job), "canceled") == Some(job.state)
  {
    var v := GetJobMessage(job);
    assert GetNumber(v, "acceptTimestamp") == Some(job.state.acceptTimestamp);
    assert GetNumber(v, "cancelTimestamp") == Some(job.state.cancelTimestamp);
  }

  lemma CompletedRoundTrip(job: Job)
    requires job.state.Completed?
    ensures DecodeState(GetJobMessage(job), "completed") == Some(job.state)
  {
    var v := GetJobMessage(job);
    assert GetNumber(v, "acceptTimestamp") == Some(job.state.acceptTimestamp);
    assert GetNumber(v, "completeTimestamp") == Some(job.state.completeTimestamp);
    assert Get(v, "result") == Some(EncodeJobResult(job.state.result));
    DecodeJobResultExact(EncodeJobResult(job.state.result), job.state.result);
  }

  function QueryMessageJson(q: QueryMessage): Json {
    JObj(map[
      "id" := JStr(q.id),
      "timestamp" := TimestampJson(q.timestamp),
      "protocol" := EncodeProtocol(q.protocol),
      "hostname" := JStr(q.hostname),
      "pathname" := JStr(q.pathname),
      "port" := PortJson(q.port),
      "search" := JStr(q.search)])
  }

  function JobMessages(jobs: seq<Job>): (r: seq<Json>)
    ensures |r| == |jobs|
  {
    seq(|jobs|, i requires 0 <= i < |jobs| => GetJobMessage(jobs[i]))
  }

  function JobListPayload(jobs: seq<Job>, queryId: ObjectId): Json {
    JObj(map["jobs" := JArr(JobMessages(jobs)), "queryId" := JStr(queryId)])
  }

  /** The `job-list` event for one query. */
  function JobListMessage(jobs: seq<Job>, queryId: ObjectId): Message {
    Message("job-list", JobListPayload(jobs, queryId))
  }

  /** A job list carries every job of the list, in order, each readable back. */
  lemma JobListRoundTrip(jobs: seq<Job>, queryId: ObjectId)
    ensures Get(JobListPayload(jobs, queryId), "queryId") == Some(JStr(queryId))
    ensures Get(JobListPayload(jobs, queryId), "jobs").Some?
    ensures Get(JobListPayload(jobs, queryId), "jobs").Some? &&
      var items := Get(JobListPayload(jobs, queryId), "jobs").value;
      && items.JArr? && |items.items| == |jobs|
      && forall i :: 0 <= i < |jobs| ==> DecodeJobMessage(items.items[i], jobs[i].providerId) == Some(jobs[i])
  {
    forall i | 0 <= i < |jobs| ensures DecodeJobMessage(JobMessages(jobs)[i], jobs[i].providerId) == Some(jobs[i]) {
      JobMessageRoundTrip(jobs[i]);
    }
  }

  // ------------------------------------------------------------ broadcasts

  function Topics(es: seq<Emission>): set<string> {
    set e | e in es :: e.topic
  }

  function JobEvent(event: string, job: Job, hostname: string): (r: seq<Emission>)
    ensures |r| == 3
    ensures Topics(r) == {QueryTopic(job.queryId), JobTopic(job.id), HostnameTopic(hostname)}
    ensures forall e :: e in r ==> e.message == Message(event, GetJobMessage(job))
  {
    var message := Message(event, GetJobMessage(job));
    var r := [Emission(QueryTopic(job.queryId), message), Emission(JobTopic(job.id), message),
              Emission(HostnameTopic(hostname), message)];
    assert r[0] in r && r[1] in r && r[2] in r;
    r
  }

  /** `job-create` goes to the job's query, the job itself and the query's hostname. */
  function EmitJobCreate(job: Job, hostname: string): (r: seq<Emission>)
    ensures |r| == 3
    ensures Topics(r) == {QueryTopic(job.queryId), JobTopic(job.id), HostnameTopic(hostname)}
    ensures forall e :: e in r ==> e.message == Message("job-create", GetJobMessage(job))
  {
    JobEvent("job-create", job, hostname)
  }

  /** `job-modify` goes to the same three topics as `job-create`. */
  function EmitJobModify(job: Job, hostname: string): (r: seq<Emission>)
    ensures |r| == 3
    ensures Topics(r) == {QueryTopic(job.queryId), JobTopic(job.id), HostnameTopic(hostname)}
    ensures forall e :: e in r ==> e.message == Message("job-modify", GetJobMessage(job))
  {
    JobEvent("job-modify", job, hostname)
  }

  /** `job-delete` names the job and its query, on the same three topics. */
  function EmitJobDelete(jobId: ObjectId, queryId: ObjectId, hostname: string): (r: seq<Emission>)
    ensures |r| == 3
    ensures Topics(r) == {QueryTopic(queryId), JobTopic(jobId), HostnameTopic(hostname)}
    ensures forall e :: e in r ==>
      e.message == Message("job-delete", JObj(map["jobId" := JStr(jobId), "queryId" := JStr(queryId)]))
  {
    var message := Message("job-delete", JObj(map["jobId" := JStr(jobId), "queryId" := JStr(queryId)]));
    var r := [Emission(QueryTopic(queryId), message), Emission(JobTopic(jobId), message),
              Emission(HostnameTopic(hostname), message)];
    assert r[0] in r && r[1] in r && r[2] in r;
    r
  }

  /** `query-create` goes to the hostname topic only. */
  function EmitQueryCreate(q: QueryMessage): (r: seq<Emission>)
    ensures |r| == 1
    ensures Topics(r) == {HostnameTopic(q.hostname)}
    ensures forall e :: e in r ==> e.message == Message("query-create", QueryMessageJson(q))
  {
    var r := [Emission(HostnameTopic(q.hostname), Message("query-create", QueryMessageJson(q)))];
    assert r[0] in r;
    r
  }

  /** `job-list` goes to the query topic and the hostname topic, not to job topics. */
  function EmitJobList(jobs: seq<Job>, queryId: ObjectId, hostname: string): (r: seq<Emission>)
    ensures |r| == 2
    ensures Topics(r) == {QueryTopic(queryId), HostnameTopic(hostname)}
    ensures forall e :: e in r ==> e.message == JobListMessage(jobs, queryId)
  {
    var message := JobListMessage(jobs, queryId);
    var r := [Emission(QueryTopic(queryId), message), Emission(HostnameTopic(hostname), message)];
    assert r[0] in r && r[1] in r;
    r
  }

  /** A socket receives a job event exactly when it has joined the job's query, the job
      or the hostname. */
  lemma JobEventRecipients(m: Membership, socket: SocketId, job: Job, hostname: string)
    ensures |Delivered(m, socket, EmitJobModify(job, hostname))| > 0 <==>
      Subscribed(m, socket, QueryTopic(job.queryId)) || Subscribed(m, socket, JobTopic(job.id)) ||
      Subscribed(m, socket, HostnameTopic(hostname))
  {
    var es := EmitJobModify(job, hostname);
    var r := Delivered(m, socket, es);
    if |r| > 0 {
      assert r[0] in r;
    }
    if Subscribed(m, socket, QueryTopic(job.queryId)) || Subscribed(m, socket, JobTopic(job.id)) ||
       Subscribed(m, socket, HostnameTopic(hostname)) {
      assert QueryTopic(job.queryId) in Topics(es);
      var e :| e in es && Subscribed(m, socket, e.topic);
      assert e.message in r;
    }
  }

  /** A socket that joined one hostname receives `query-create` for queries of that
      hostname and for no other. */
  lemma QueryCreateStaysWithinHostname(m: Membership, socket: SocketId, hostname: string, q: QueryMessage)
    requires socket in m && m[socket] == {HostnameTopic(hostname)}
    ensures |Delivered(m, socket, EmitQueryCreate(q))| > 0 <==> q.hostname == hostname
  {
    TopicsAreUnambiguous(q.hostname, hostname);
    var es := EmitQueryCreate(q);
    var r := Delivered(m, socket, es);
    if |r| > 0 {
      assert r[0] in r;
    }
    if q.hostname == hostname {
      assert es[0] in es;
      assert es[0].message in r;
    }
  }

  /** Broadcasts go out once per topic, so a socket that joined both a query and its
      hostname receives each job event twice. */
  lemma OverlappingTopicsDuplicate(m: Membership, socket: SocketId, job: Job, hostname: string)
    requires Subscribed(m, socket, QueryTopic(job.queryId)) && Subscribed(m, socket, HostnameTopic(hostname))
    requires !Subscribed(m, socket, JobTopic(job.id))
    ensures Delivered(m, socket, EmitJobModify(job, hostname)) ==
      [Message("job-modify", GetJobMessage(job)), Message("job-modify", GetJobMessage(job))]
  {
    var msg := Message("job-modify", GetJobMessage(job));
    var es := EmitJobModify(job, hostname);
    assert es == [Emission(QueryTopic(job.queryId), msg), Emission(JobTopic(job.id), msg),
                  Emission(HostnameTopic(hostname), msg)];
    assert es[1..][1..][1..] == [];
    assert Delivered(m, socket, es[1..][1..]) == [msg];
    assert Delivered(m, socket, es[1..]) == [msg];
  }

  // -------------------------------------------------------------- handlers

  function SchemaRejected(m: Membership): Handled {
    Handled(m, Ack(Some(SchemaMismatch), None), [])
  }

  function QueryAck(outcome: Result<QueryMessage>): (r: Ack)
    ensures r.error.None? <==> outcome.Ok?
    ensures outcome.Ok? ==> r.data == Some(QueryMessageJson(outcome.value))
    ensures outcome.Err? ==> r == Ack(Some(outcome.message), None)
  {
    match outcome
    case Ok(q) => Ack(None, Some(QueryMessageJson(q)))
    case Err(e) => Ack(Some(e), None)
  }

  /** The `subscribe` flag of a request; the schemas do not list it, so it is read from
      the raw payload with JavaScript truthiness. */
  predicate WantsSubscription(data: Json) {
    Truthy(Get(data, "subscribe"))
  }

  /** `query-website`: after the schema check the socket joins the new query's topic if
      it asked to, before the query is dispatched and whatever the dispatch's outcome. */
  function OnWebsiteQuery(m: Membership, socket: SocketId, data: Json, newId: ObjectId,
                          dispatch: (WebsiteQueryMessage, ObjectId) -> Result<QueryMessage>): (r: Handled)
    ensures DecodeWebsiteQuery(data).None? ==> r == SchemaRejected(m)
    ensures forall s, t :: Subscribed(r.membership, s, t) <==>
      Subscribed(m, s, t) ||
      (DecodeWebsiteQuery(data).Some? && WantsSubscription(data) && s == socket && t == QueryTopic(newId))
    ensures DecodeWebsiteQuery(data).Some? ==>
      r.ack == QueryAck(dispatch(DecodeWebsiteQuery(data).value, newId)) && r.sent == []
  {
    match DecodeWebsiteQuery(data)
    case None => SchemaRejected(m)
    case Some(request) =>
      var m' := if WantsSubscription(data) then Join(m, socket, QueryTopic(newId)) else m;
      Handled(m', QueryAck(dispatch(request, newId)), [])
  }

  /** `query-api`: as `query-website`, with the API schema. */
  function OnApiQuery(m: Membership, socket: SocketId, data: Json, newId: ObjectId,
                      dispatch: (ApiQueryMessage, ObjectId) -> Result<QueryMessage>): (r: Handled)
    ensures DecodeApiQuery(data).None? ==> r == SchemaRejected(m)
    ensures forall s, t :: Subscribed(r.membership, s, t) <==>
      Subscribed(m, s, t) ||
      (DecodeApiQuery(data).Some? && WantsSubscription(data) && s == socket && t == QueryTopic(newId))
    ensures DecodeApiQuery(data).Some? ==>
      r.ack == QueryAck(dispatch(DecodeApiQuery(data).value, newId)) && r.sent == []
  {
    match DecodeApiQuery(data)
    case None => SchemaRejected(m)
    case Some(request) =>
      var m' := if WantsSubscription(data) then Join(m, socket, QueryTopic(newId)) else m;
      Handled(m', QueryAck(dispatch(request, newId)), [])
  }

  /** `get-query`: the socket joins the query's topic only if it asked to and the query
      was found; a found query answers with its job list sent to the socket alone. */
  function OnGetQuery(m: Membership, socket: SocketId, data: Json,
                      getQuery: ObjectId -> Result<QueryMessage>,
                      getJobs: ObjectId -> Result<seq<Job>>): (r: Handled)
    ensures DecodeStringField(data, "queryId").None? ==> r == SchemaRejected(m)
    ensures forall s, t :: Subscribed(r.membership, s, t) <==>
      Subscribed(m, s, t) ||
      (DecodeStringField(data, "queryId").Some? && getQuery(DecodeStringField(data, "queryId").value).Ok? &&
       WantsSubscription(data) && s == socket && t == QueryTopic(DecodeStringField(data, "queryId").value))
    ensures DecodeStringField(data, "queryId").Some? ==>
      var id := DecodeStringField(data, "queryId").value;
      && (r.ack.error.None? <==> getQuery(id).Ok? && getJobs(id).Ok?)
      && (r.ack.error.None? ==>
            r.ack.data == Some(QueryMessageJson(getQuery(id).value)) &&
            r.sent == [JobListMessage(getJobs(id).value, id)])
      && (r.ack.error.Some? ==> r.sent == [] && r.ack.data == None)
  {
    match DecodeStringField(data, "queryId")
    case None => SchemaRejected(m)
    case Some(id) =>
      match getQuery(id)
      case Err(e) => Handled(m, Ack(Some(e), None), [])
      case Ok(query) =>
        var m' := if WantsSubscription(data) then Join(m, socket, QueryTopic(id)) else m;
        match getJobs(id)
        case Err(e) => Handled(m', Ack(Some(e), None), [])
        case Ok(jobs) =>
          Handled(m', Ack(None, Some(QueryMessageJson(query))), [JobListMessage(jobs, id)])
  }

  /** Reading the jobs of `queries[k]` is the first lookup that fails. */
  predicate FirstFailureAt(queries: seq<QueryMessage>, getJobs: ObjectId -> Result<seq<Job>>, k: int) {
    && 0 <= k < |queries|
    && getJobs(queries[k].id).Err?
    && forall j :: 0 <= j < k ==> getJobs(queries[j].id).Ok?
  }

  /** A failure first met after a successful lookup is the first failure of the whole
      list. */
  lemma FirstFailureShifts(queries: seq<QueryMessage>, getJobs: ObjectId -> Result<seq<Job>>, err: Option<string>)
    requires |queries| > 0 && getJobs(queries[0].id).Ok?
    requires err.Some? ==>
      exists k :: FirstFailureAt(queries[1..], getJobs, k) && err == Some(getJobs(queries[1..][k].id).message)
    ensures err.Some? ==>
      exists k :: FirstFailureAt(queries, getJobs, k) && err == Some(getJobs(queries[k].id).message)
  {
    if err.Some? {
      var k :| FirstFailureAt(queries[1..], getJobs, k) && err == Some(getJobs(queries[1..][k].id).message);
      forall j | 0 <= j < k + 1 ensures getJobs(queries[j].id).Ok? {
        if j > 0 {
          assert queries[j] == queries[1..][j - 1];
        }
      }
      assert queries[1..][k] == queries[k + 1];
      assert FirstFailureAt(queries, getJobs, k + 1);
    }
  }

  /** The job lists of `queries` whose jobs could be read, and the error of the first
      query whose jobs could not. */
  function JobLists(queries: seq<QueryMessage>, getJobs: ObjectId -> Result<seq<Job>>): (r: (seq<Message>, Option<string>))
    ensures |r.0| <= |queries|
    ensures r.1.None? <==> forall i :: 0 <= i < |queries| ==> getJobs(queries[i].id).Ok?
    ensures r.1.None? ==> |r.0| == |queries|
    ensures r.1.None? ==> forall i :: 0 <= i < |queries| ==>
      r.0[i] == JobListMessage(getJobs(queries[i].id).value, queries[i].id)
    ensures r.1.Some? ==> exists k :: FirstFailureAt(queries, getJobs, k) && r.1 == Some(getJobs(queries[k].id).message)
    decreases |queries|
  {
    if |queries| == 0 then ([], None)
    else
      var q := queries[0];
      var (rest, err) := JobLists(queries[1..], getJobs);
      assert forall i :: 1 <= i < |queries| ==> queries[i] == queries[1..][i - 1];
      match getJobs(q.id)
      case Ok(jobs) =>
        FirstFailureShifts(queries, getJobs, err);
        ([JobListMessage(jobs, q.id)] + rest, err)
      case Err(e) =>
        assert FirstFailureAt(queries, getJobs, 0);
        (rest, Some(e))
  }

  /** `lists` holds the job lists of exactly the queries whose jobs were read, in the
      queries' order: `idx` picks those queries out. */
  predicate ListsOfReadQueries(queries: seq<QueryMessage>, getJobs: ObjectId -> Result<seq<Job>>,
                               lists: seq<Message>, idx: seq<int>)
  {
    && ListsAt(queries, getJobs, lists, idx)
    && Increasing(idx)
    && CoversRead(queries, getJobs, idx)
  }

  /** Each `lists[k]` is the job list of the read query `queries[idx[k]]`. */
  predicate ListsAt(queries: seq<QueryMessage>, getJobs: ObjectId -> Result<seq<Job>>,
                    lists: seq<Message>, idx: seq<int>)
  {
    && |idx| == |lists|
    && forall k :: 0 <= k < |idx| ==>
         && 0 <= idx[k] < |queries| && getJobs(queries[idx[k]].id).Ok?
         && lists[k] == JobListMessage(getJobs(queries[idx[k]].id).value, queries[idx[k]].id)
  }

  predicate Increasing(idx: seq<int>) {
    forall k, l :: 0 <= k < l < |idx| ==> idx[k] < idx[l]
  }

  /** Every query whose jobs were read is picked by `idx`. */
  predicate CoversRead(queries: seq<QueryMessage>, getJobs: ObjectId -> Result<seq<Job>>, idx: seq<int>) {
    forall i :: 0 <= i < |queries| && getJobs(queries[i].id).Ok? ==> i in idx
  }

  function Shift(idx: seq<int>): (r: seq<int>)
    ensures |r| == |idx| && forall k :: 0 <= k < |idx| ==> r[k] == idx[k] + 1
  {
    seq(|idx|, k requires 0 <= k < |idx| => idx[k] + 1)
  }

  /** Lists of the tail's read queries, with their indices shifted, are lists of the
      whole sequence's read queries when the head's jobs could not be read. */
  lemma ListsOfReadQueriesSkip(queries: seq<QueryMessage>, getJobs: ObjectId -> Result<seq<Job>>,
                               rest: seq<Message>, idxRest: seq<int>)
    requires |queries| > 0 && getJobs(queries[0].id).Err?
    requires ListsOfReadQueries(queries[1..], getJobs, rest, idxRest)
    ensures ListsOfReadQueries(queries, getJobs, rest, Shift(idxRest))
  {
    ShiftKeepsEntries(queries, getJobs, rest, idxRest);
    ShiftCoversTail(queries, getJobs, rest, idxRest);
    forall i | 0 <= i < |queries| && getJobs(queries[i].id).Ok? ensures i in Shift(idxRest) {
    }
  }

  /** The same, when the head's jobs were read: its list goes in front. */
  lemma ListsOfReadQueriesCons(queries: seq<QueryMessage>, getJobs: ObjectId -> Result<seq<Job>>,
                               rest: seq<Message>, idxRest: seq<int>)
    requires |queries| > 0 && getJobs(queries[0].id).Ok?
    requires ListsOfReadQueries(queries[1..], getJobs, rest, idxRest)
    ensures ListsOfReadQueries(queries, getJobs,
                               [JobListMessage(getJobs(queries[0].id).value, queries[0].id)] + rest,
                               [0] + Shift(idxRest))
  {
    ShiftKeepsEntries(queries, getJobs, rest, idxRest);
    ShiftCoversTail(queries, getJobs, rest, idxRest);
    ConsListsAt(queries, getJobs, JobListMessage(getJobs(queries[0].id).value, queries[0].id), rest, Shift(idxRest));
    ConsIncreasing(Shift(idxRest));
    ConsCovers(queries, getJobs, Shift(idxRest));
  }

  lemma ConsListsAt(queries: seq<QueryMessage>, getJobs: ObjectId -> Result<seq<Job>>, head: Message,
                    rest: seq<Message>, shifted: seq<int>)
    requires |queries| > 0 && getJobs(queries[0].id).Ok?
    requires head == JobListMessage(getJobs(queries[0].id).value, queries[0].id)
    requires |shifted| == |rest|
    requires forall k :: 0 <= k < |shifted| ==>
      && 0 < shifted[k] < |queries| && getJobs(queries[shifted[k]].id).Ok?
      && rest[k] == JobListMessage(getJobs(queries[shifted[k]].id).value, queries[shifted[k]].id)
    ensures ListsAt(queries, getJobs, [head] + rest, [0] + shifted)
  {
    var lists, idx := [head] + rest, [0] + shifted;
    forall k | 0 <= k < |idx|
      ensures 0 <= idx[k] < |queries| && getJobs(queries[idx[k]].id).Ok?
      ensures lists[k] == JobListMessage(getJobs(queries[idx[k]].id).value, queries[idx[k]].id)
    {
      if k > 0 {
        assert idx[k] == shifted[k - 1] && lists[k] == rest[k - 1];
      }
    }
  }

  lemma ConsIncreasing(shifted: seq<int>)
    requires forall k :: 0 <= k < |shifted| ==> 0 < shifted[k]
    requires Increasing(shifted)
    ensures Increasing([0] + shifted)
  {
    var idx := [0] + shifted;
    forall k, l | 0 <= k < l < |idx| ensures idx[k] < idx[l] {
      assert idx[l] == shifted[l - 1];
      if k > 0 {
        assert idx[k] == shifted[k - 1];
      }
    }
  }

  lemma ConsCovers(queries: seq<QueryMessage>, getJobs: ObjectId -> Result<seq<Job>>, shifted: seq<int>)
    requires forall i :: 1 <= i < |queries| && getJobs(queries[i].id).Ok? ==> i in shifted
    ensures CoversRead(queries, getJobs, [0] + shifted)
  {
    forall i | 0 <= i < |queries| && getJobs(queries[i].id).Ok? ensures i in [0] + shifted {
      if i > 0 {
        assert i in shifted;
      }
    }
  }

  lemma ShiftKeepsEntries(queries: seq<QueryMessage>, getJobs: ObjectId -> Result<seq<Job>>,
                          rest: seq<Message>, idxRest: seq<int>)
    requires |queries| > 0
    requires ListsOfReadQueries(queries[1..], getJobs, rest, idxRest)
    ensures forall k :: 0 <= k < |idxRest| ==>
      && 0 < Shift(idxRest)[k] < |queries|
      && getJobs(queries[Shift(idxRest)[k]].id).Ok?
      && rest[k] == JobListMessage(getJobs(queries[Shift(idxRest)[k]].id).value, queries[Shift(idxRest)[k]].id)
    ensures Increasing(Shift(idxRest))
  {
    forall k | 0 <= k < |idxRest| ensures queries[Shift(idxRest)[k]] == queries[1..][idxRest[k]] {
    }
  }

  lemma ShiftCoversTail(queries: seq<QueryMessage>, getJobs: ObjectId -> Result<seq<Job>>,
                        rest: seq<Message>, idxRest: seq<int>)
    requires |queries| > 0
    requires ListsOfReadQueries(queries[1..], getJobs, rest, idxRest)
    ensures forall i :: 1 <= i < |queries| && getJobs(queries[i].id).Ok? ==> i in Shift(idxRest)
  {
    forall i | 1 <= i < |queries| && getJobs(queries[i].id).Ok? ensures i in Shift(idxRest) {
      assert queries[i] == queries[1..][i - 1];
      var k :| 0 <= k < |idxRest| && idxRest[k] == i - 1;
      assert Shift(idxRest)[k] == i;
    }
  }

  /** A failed lookup costs only its own list: the lists sent are those of every other
      query, each once and in order. */
  lemma {:induction false} JobListsOfReadQueries(queries: seq<QueryMessage>, getJobs: ObjectId -> Result<seq<Job>>)
    ensures exists idx :: ListsOfReadQueries(queries, getJobs, JobLists(queries, getJobs).0, idx)
    decreases |queries|
  {
    if |queries| == 0 {
      assert JobLists(queries, getJobs).0 == [];
      assert ListsOfReadQueries(queries, getJobs, [], []);
    } else {
      JobListsOfReadQueries(queries[1..], getJobs);
      var rest := JobLists(queries[1..], getJobs).0;
      var idxRest :| ListsOfReadQueries(queries[1..], getJobs, rest, idxRest);
      var q := queries[0];
      if getJobs(q.id).Ok? {
        ListsOfReadQueriesCons(queries, getJobs, rest, idxRest);
        assert JobLists(queries, getJobs).0 == [JobListMessage(getJobs(q.id).value, q.id)] + rest;
      } else {
        ListsOfReadQueriesSkip(queries, getJobs, rest, idxRest);
        assert JobLists(queries, getJobs).0 == rest;
      }
    }
  }

  function HostnameQueriesJson(hostname: string, queries: seq<QueryMessage>): Json {
    JObj(map["hostname" := JStr(hostname),
             "queries" := JArr(seq(|queries|, i requires 0 <= i < |queries| => QueryMessageJson(queries[i])))])
  }

  /** `get-hostname-queries`: the socket joins the hostname topic only if it asked to and
      the lookup succeeded, then receives one job list per query found. */
  function OnGetHostnameQueries(m: Membership, socket: SocketId, data: Json,
                                getHostnameQueries: string -> Result<seq<QueryMessage>>,
                                getJobs: ObjectId -> Result<seq<Job>>): (r: Handled)
    ensures DecodeStringField(data, "hostname").None? ==> r == SchemaRejected(m)
    ensures forall s, t :: Subscribed(r.membership, s, t) <==>
      Subscribed(m, s, t) ||
      (DecodeStringField(data, "hostname").Some? &&
       getHostnameQueries(DecodeStringField(data, "hostname").value).Ok? &&
       WantsSubscription(data) && s == socket && t == HostnameTopic(DecodeStringField(data, "hostname").value))
    ensures DecodeStringField(data, "hostname").Some? ==>
      var h := DecodeStringField(data, "hostname").value;
      && (getHostnameQueries(h).Err? ==> r.ack == Ack(Some(getHostnameQueries(h).message), None) && r.sent == [])
      && (getHostnameQueries(h).Ok? ==>
            var queries := getHostnameQueries(h).value;
            && r.sent == JobLists(queries, getJobs).0
            && r.ack.error == JobLists(queries, getJobs).1
            && (r.ack.error.None? <==> forall i :: 0 <= i < |queries| ==> getJobs(queries[i].id).Ok?)
            && (r.ack.error.None? ==> r.ack.data == Some(HostnameQueriesJson(h, queries)))
            && (r.ack.error.Some? ==> r.ack.data == None))
  {
    match DecodeStringField(data, "hostname")
    case None => SchemaRejected(m)
    case Some(h) =>
      match getHostnameQueries(h)
      case Err(e) => Handled(m, Ack(Some(e), None), [])
      case Ok(queries) =>
        var m' := if WantsSubscription(data) then Join(m, socket, HostnameTopic(h)) else m;
        var (lists, err) := JobLists(queries, getJobs);
        match err
        case Some(e) => Handled(m', Ack(Some(e), None), lists)
        case None => Handled(m', Ack(None, Some(HostnameQueriesJson(h, queries))), lists)
  }

  /** A payload that fails its schema never reaches the dispatcher: the handler's whole
      outcome is the same whatever the dispatcher callbacks would do. */
  lemma SchemaRejectionIgnoresDispatcher(m: Membership, socket: SocketId, data: Json, newId: ObjectId,
                                         f: (WebsiteQueryMessage, ObjectId) -> Result<QueryMessage>,
                                         g: (WebsiteQueryMessage, ObjectId) -> Result<QueryMessage>,
                                         q1: ObjectId -> Result<QueryMessage>, q2: ObjectId -> Result<QueryMessage>,
                                         j1: ObjectId -> Result<seq<Job>>, j2: ObjectId -> Result<seq<Job>>)
    requires DecodeWebsiteQuery(data).None? && DecodeStringField(data, "queryId").None?
    ensures OnWebsiteQuery(m, socket, data, newId, f) == OnWebsiteQuery(m, socket, data, newId, g)
    ensures OnGetQuery(m, socket, data, q1, j1) == OnGetQuery(m, socket, data, q2, j2)
  {
  }

  /** A submitter that asked to subscribe receives every job event of the query it
      submitted, whatever hostname the event is also sent to. */
  lemma SubmitterSeesItsJobs(m: Membership, socket: SocketId, data: Json, newId: ObjectId,
                             dispatch: (WebsiteQueryMessage, ObjectId) -> Result<QueryMessage>,
                             job: Job, hostname: string)
    requires DecodeWebsiteQuery(data).Some? && WantsSubscription(data)
    requires job.queryId == newId
    ensures |Delivered(OnWebsiteQuery(m, socket, data, newId, dispatch).membership, socket,
                       EmitJobCreate(job, hostname))| > 0
  {
    var m' := OnWebsiteQuery(m, socket, data, newId, dispatch).membership;
    assert Subscribed(m', socket, QueryTopic(newId));
    var es := EmitJobCreate(job, hostname);
    assert QueryTopic(job.queryId) in Topics(es);
    var e :| e in es && e.topic == QueryTopic(job.queryId);
    assert e.message in Delivered(m', socket, es);
  }
}

=== FILE: dispatcher.dfy ===
/** The dispatcher: the registry of connected providers, the checks every provider
    request passes, the job transitions they drive, disconnect recovery and the fan-out
    of a new query into one job per connected provider.

    The document store is a value: providers and API clients keyed by token, queries
    and jobs keyed by id. A store operation the dispatcher awaits is a plain update
    here; every store write and every notification the dispatcher makes is reported as
    an `Effect`, in the order the model performs them. */
module Dispatcher {
  import opened Results
  import opened Jobs
  import opened Records
  import opened Transitions

  /** The identity of a Socket.IO connection. */
  type SocketId = string

  /** The geolocation resolved for a connecting address. */
  datatype IpInfo = IpInfo(countryCode: string, regionCode: string, ispName: string)

  /** A live provider connection with the geolocation captured when it was made. */
  datatype ProviderConnection = ProviderConnection(
    socket: SocketId,
    provider: Provider,
    countryCode: string,
    regionCode: string,
    ispName: string)

  datatype Store = Store(
    providers: map<string, Provider>,
    apiClients: map<string, ApiClient>,
    queries: map<ObjectId, Query>,
    jobs: map<ObjectId, Job>)

  datatype Dispatcher = Dispatcher(connections: seq<ProviderConnection>, store: Store)

  /** What an operation announces: a job created or replaced (to the API side), or a
      job handed to a provider's socket. */
  datatype Effect =
    | JobCreated(job: Job)
    | JobModified(job: Job)
    | JobDispatched(socket: SocketId, query: Query, jobId: ObjectId)

  datatype Step = Step(next: Dispatcher, effects: seq<Effect>)

  /** The public view of a query returned to callers. */
  datatype QueryMessage = QueryMessage(
    id: ObjectId,
    timestamp: Timestamp,
    protocol: Protocol,
    hostname: string,
    pathname: string,
    port: Option<int>,
    search: string)

  /** The URL parts of a submitted query. */
  datatype QueryRequest = QueryRequest(
    protocol: Protocol,
    hostname: string,
    pathname: string,
    port: Option<int>,
    search: string)

  const AlreadyInitialized := "This provider has already been initialized"
  const InvalidToken := "Invalid token"
  const NotConnected := "Provider not connected"
  const JobNotFound := "Job not found"
  const WrongProvider := "Job assigned to a different provider"
  const QueryNotFound := "Query not found"
  const CaptchaFailed := "Captcha verification failed"

  // ------------------------------------------------------------ invariants

  predicate HasToken(conns: seq<ProviderConnection>, token: string) {
    exists i :: 0 <= i < |conns| && conns[i].provider.token == token
  }

  predicate HasSocket(conns: seq<ProviderConnection>, socket: SocketId) {
    exists i :: 0 <= i < |conns| && conns[i].socket == socket
  }

  /** At most one connection per provider token. */
  predicate UniqueTokens(conns: seq<ProviderConnection>) {
    forall i, j :: 0 <= i < j < |conns| ==> conns[i].provider.token != conns[j].provider.token
  }

  /** Every job is stored under its own id. */
  predicate JobsKeyed(jobs: map<ObjectId, Job>) {
    forall id :: id in jobs ==> jobs[id].id == id
  }

  /** Providers are found by their own token, and ids tell providers apart. */
  predicate ProvidersKeyed(providers: map<string, Provider>) {
    && (forall t :: t in providers ==> providers[t].token == t)
    && (forall t, u :: t in providers && u in providers && providers[t].id == providers[u].id ==> t == u)
  }

  /** Every connection carries the provider record the store holds for its token. */
  predicate ConnectionsFromStore(conns: seq<ProviderConnection>, providers: map<string, Provider>) {
    forall i :: 0 <= i < |conns| ==>
      conns[i].provider.token in providers && providers[conns[i].provider.token] == conns[i].provider
  }

  predicate Valid(d: Dispatcher) {
    && UniqueTokens(d.connections)
    && ProvidersKeyed(d.store.providers)
    && ConnectionsFromStore(d.connections, d.store.providers)
    && JobsKeyed(d.store.jobs)
  }

  /** One connection per token means one connection per provider, provided every
      connection still carries the store's record for its token and the store keys
      providers by token with distinct ids. */
  lemma ValidConnectionsHaveDistinctProviders(d: Dispatcher)
    requires Valid(d)
    ensures forall i, j :: 0 <= i < j < |d.connections| ==>
      d.connections[i].provider.id != d.connections[j].provider.id
  {
    var conns := d.connections;
    forall i, j | 0 <= i < j < |conns|
      ensures conns[i].provider.id != conns[j].provider.id
    {
      var t, u := conns[i].provider.token, conns[j].provider.token;
      assert d.store.providers[t] == conns[i].provider;
      assert d.store.providers[u] == conns[j].provider;
      assert t != u;
    }
  }

  // -------------------------------------------------------------- registry

  /** The position of the first connection on `socket`, or -1. */
  function FirstSocketIndex(conns: seq<ProviderConnection>, socket: SocketId): (i: int)
    ensures -1 <= i < |conns|
    ensures 0 <= i ==> conns[i].socket == socket
    ensures forall k :: 0 <= k < |conns| && (i == -1 || k < i) ==> conns[k].socket != socket
    decreases |conns|
  {
    if |conns| == 0 then -1
    else if conns[0].socket == socket then 0
    else
      var j := FirstSocketIndex(conns[1..], socket);
      if j == -1 then -1 else j + 1
  }

  /** The connection on `socket`, if the socket is registered. */
  function FindBySocket(conns: seq<ProviderConnection>, socket: SocketId): (r: Option<ProviderConnection>)
    ensures r.Some? <==> HasSocket(conns, socket)
    ensures r.Some? ==> r.value in conns && r.value.socket == socket
  {
    var i := FirstSocketIndex(conns, socket);
    if i == -1 then None else Some(conns[i])
  }

  /** The registry without the connections on `socket`. */
  function RemoveSocket(conns: seq<ProviderConnection>, socket: SocketId): (r: seq<ProviderConnection>)
    ensures forall c :: c in r <==> c in conns && c.socket != socket
    ensures |r| <= |conns|
    ensures !HasSocket(r, socket)
  {
    if |conns| == 0 then []
    else if conns[0].socket == socket then RemoveSocket(conns[1..], socket)
    else [conns[0]] + RemoveSocket(conns[1..], socket)
  }

  /** Removal works element by element, so it keeps the surviving connections in their
      original order. */
  lemma {:induction false} RemoveSocketDistributes(a: seq<ProviderConnection>, b: seq<ProviderConnection>, socket: SocketId)
    ensures RemoveSocket(a + b, socket) == RemoveSocket(a, socket) + RemoveSocket(b, socket)
    decreases |a|
  {
    if |a| == 0 {
      assert a + b == b;
    } else {
      assert (a + b)[1..] == a[1..] + b;
      RemoveSocketDistributes(a[1..], b, socket);
    }
  }

  /** Connections on other sockets all survive, unchanged and in order. */
  lemma {:induction false} RemoveSocketKeepsOthers(conns: seq<ProviderConnection>, socket: SocketId)
    requires !HasSocket(conns, socket)
    ensures RemoveSocket(conns, socket) == conns
    decreases |conns|
  {
    if |conns| > 0 {
      assert conns[0].socket != socket;
      assert !HasSocket(conns[1..], socket) by {
        forall i | 0 <= i < |conns[1..]| ensures conns[1..][i].socket != socket {
          assert conns[1..][i] == conns[i + 1];
        }
      }
      RemoveSocketKeepsOthers(conns[1..], socket);
      assert [conns[0]] + conns[1..] == conns;
    }
  }

  /** A connection whose token no later connection shares may head a registry with
      unique tokens. */
  lemma ConsKeepsUniqueTokens(c: ProviderConnection, tail: seq<ProviderConnection>)
    requires UniqueTokens(tail)
    requires forall j :: 0 <= j < |tail| ==> tail[j].provider.token != c.provider.token
    ensures UniqueTokens([c] + tail)
  {
    var r := [c] + tail;
    forall i, j | 0 <= i < j < |r| ensures r[i].provider.token != r[j].provider.token {
      assert r[j] == tail[j - 1];
      if i > 0 {
        assert r[i] == tail[i - 1];
      }
    }
  }

  lemma {:induction false} RemoveSocketKeepsUniqueTokens(conns: seq<ProviderConnection>, socket: SocketId)
    requires UniqueTokens(conns)
    ensures UniqueTokens(RemoveSocket(conns, socket))
    decreases |conns|
  {
    if |conns| > 0 {
      var rest := conns[1..];
      assert UniqueTokens(rest) by {
        forall i, j | 0 <= i < j < |rest| ensures rest[i].provider.token != rest[j].provider.token {
          assert rest[i] == conns[i + 1] && rest[j] == conns[j + 1];
        }
      }
      RemoveSocketKeepsUniqueTokens(rest, socket);
      var tail := RemoveSocket(rest, socket);
      if conns[0].socket != socket {
        forall j | 0 <= j < |tail| ensures tail[j].provider.token != conns[0].provider.token {
          assert tail[j] in rest;
          var k :| 0 <= k < |rest| && rest[k] == tail[j];
          assert rest[k] == conns[k + 1];
        }
        ConsKeepsUniqueTokens(conns[0], tail);
      }
    }
  }

  /** Registers a provider connection (the handshake): refused if the token already
      has a connection, or names no provider, or the address cannot be geolocated. */
  function InitProvider(d: Dispatcher, socket: SocketId, token: string, ipInfo: Result<IpInfo>): (r: Result<Dispatcher>)
    ensures HasToken(d.connections, token) ==> r == Err(AlreadyInitialized)
    ensures !HasToken(d.connections, token) && token !in d.store.providers ==> r == Err(InvalidToken)
    ensures !HasToken(d.connections, token) && token in d.store.providers && ipInfo.Err? ==>
      r == Err(ipInfo.message)
    ensures r.Ok? <==> !HasToken(d.connections, token) && token in d.store.providers && ipInfo.Ok?
    ensures r.Ok? ==> r.value.store == d.store
    ensures r.Ok? ==> |r.value.connections| == |d.connections| + 1
    ensures r.Ok? ==> r.value.connections[..|d.connections|] == d.connections
    ensures r.Ok? ==>
      var c := r.value.connections[|d.connections|];
      && c.socket == socket && c.provider == d.store.providers[token]
      && c.countryCode == ipInfo.value.countryCode && c.regionCode == ipInfo.value.regionCode
      && c.ispName == ipInfo.value.ispName
  {
    if HasToken(d.connections, token) then Err(AlreadyInitialized)
    else if token !in d.store.providers then Err(InvalidToken)
    else
      var info :- ipInfo;
      var provider := d.store.providers[token];
      var connection := ProviderConnection(socket, provider, info.countryCode, info.regionCode, info.ispName);
      Ok(d.(connections := d.connections + [connection]))
  }

  lemma InitProviderKeepsValid(d: Dispatcher, socket: SocketId, token: string, ipInfo: Result<IpInfo>)
    requires Valid(d)
    requires InitProvider(d, socket, token, ipInfo).Ok?
    ensures Valid(InitProvider(d, socket, token, ipInfo).value)
  {
    var d' := InitProvider(d, socket, token, ipInfo).value;
    var n := |d.connections|;
    assert d'.connections[n].provider.token == token;
    forall i | 0 <= i < n ensures d'.connections[i] == d.connections[i] {
      assert d'.connections[..n][i] == d'.connections[i];
    }
    forall i, j | 0 <= i < j < |d'.connections|
      ensures d'.connections[i].provider.token != d'.connections[j].provider.token
    {
      if j == n {
        assert d.connections[i].provider.token != token;
      }
    }
  }

  /** A second handshake with a token that just connected is refused, whatever socket
      it comes from. */
  lemma DuplicateTokenRefused(d: Dispatcher, s1: SocketId, s2: SocketId, token: string,
                              ip1: Result<IpInfo>, ip2: Result<IpInfo>)
    requires ProvidersKeyed(d.store.providers)
    requires InitProvider(d, s1, token, ip1).Ok?
    ensures InitProvider(InitProvider(d, s1, token, ip1).value, s2, token, ip2) == Err(AlreadyInitialized)
  {
    var d' := InitProvider(d, s1, token, ip1).value;
    assert d'.connections[|d.connections|].provider.token == token;
  }

  /** After the connection holding a token disconnects, the same token may connect
      again at once. */
  lemma ReconnectAfterDisconnect(d: Dispatcher, socket: SocketId, store: Store, s2: SocketId, ip: IpInfo)
    requires Valid(d)
    requires FindBySocket(d.connections, socket).Some?
    requires FindBySocket(d.connections, socket).value.provider.token in store.providers
    ensures InitProvider(Dispatcher(RemoveSocket(d.connections, socket), store), s2,
                         FindBySocket(d.connections, socket).value.provider.token, Ok(ip)).Ok?
  {
    var c := FindBySocket(d.connections, socket).value;
    var rest := RemoveSocket(d.connections, socket);
    var j :| 0 <= j < |d.connections| && d.connections[j] == c;
    forall k | 0 <= k < |rest| ensures rest[k].provider.token != c.provider.token {
      assert rest[k] in d.connections && rest[k].socket != socket;
      var i :| 0 <= i < |d.connections| && d.connections[i] == rest[k];
      assert i != j;
    }
  }

  // ------------------------------------------------------ provider actions

  /** The registered connection of `socket`. */
  function GetProviderConnection(conns: seq<ProviderConnection>, socket: SocketId): (r: Result<ProviderConnection>)
    ensures r.Ok? <==> HasSocket(conns, socket)
    ensures r.Ok? ==> r.value in conns && r.value.socket == socket
    ensures r.Err? ==> r.message == NotConnected
  {
    match FindBySocket(conns, socket)
    case Some(c) => Ok(c)
    case None => Err(NotConnected)
  }

  /** The job `jobId`, provided it exists and belongs to the connection's provider. */
  function GetAndVerifyJob(jobs: map<ObjectId, Job>, conn: ProviderConnection, jobId: ObjectId): (r: Result<Job>)
    ensures r.Ok? <==> jobId in jobs && jobs[jobId].providerId == conn.provider.id
    ensures r.Ok? ==> r.value == jobs[jobId]
    ensures r.Err? ==> r.message == (if jobId in jobs then WrongProvider else JobNotFound)
  {
    if jobId !in jobs then Err(JobNotFound)
    else if jobs[jobId].providerId != conn.provider.id then Err(WrongProvider)
    else Ok(jobs[jobId])
  }

  /** Overwrites the stored job with the same id; a missing id changes nothing. */
  function ReplaceJob(jobs: map<ObjectId, Job>, job: Job): (r: map<ObjectId, Job>)
    ensures r.Keys == jobs.Keys
    ensures job.id in jobs ==> r[job.id] == job
    ensures forall id :: id in jobs && id != job.id ==> r[id] == jobs[id]
  {
    if job.id in jobs then jobs[job.id := job] else jobs
  }

  /** `socket` is registered and `jobId` names a job of its provider. */
  predicate Authorized(d: Dispatcher, socket: SocketId, jobId: ObjectId) {
    && FindBySocket(d.connections, socket).Some?
    && jobId in d.store.jobs
    && d.store.jobs[jobId].providerId == FindBySocket(d.connections, socket).value.provider.id
  }

  /** `next` differs from `d` at most in the stored job `jobId`. */
  predicate OnlyJobChanged(d: Dispatcher, next: Dispatcher, jobId: ObjectId) {
    && next.connections == d.connections
    && next.store.(jobs := d.store.jobs) == d.store
    && next.store.jobs.Keys == d.store.jobs.Keys
    && forall id :: id in d.store.jobs && id != jobId ==> next.store.jobs[id] == d.store.jobs[id]
  }

  /** The common path of accept, reject, cancel and complete: look up the connection,
      then the job and its owner, then rebuild the job and store it. */
  function RunAction(d: Dispatcher, socket: SocketId, jobId: ObjectId, action: Action, now: Timestamp): (r: Result<Step>)
    ensures !HasSocket(d.connections, socket) ==> r == Err(NotConnected)
    ensures HasSocket(d.connections, socket) && jobId !in d.store.jobs ==> r == Err(JobNotFound)
    ensures HasSocket(d.connections, socket) && jobId in d.store.jobs && !Authorized(d, socket, jobId) ==>
      r == Err(WrongProvider)
    ensures Authorized(d, socket, jobId) ==> r.Ok? == Apply(d.store.jobs[jobId], action, now).Ok?
    ensures r.Ok? ==> Authorized(d, socket, jobId)
    ensures r.Ok? && JobsKeyed(d.store.jobs) ==>
      && OnlyJobChanged(d, r.value.next, jobId)
      && r.value.next.store.jobs[jobId] == Apply(d.store.jobs[jobId], action, now).value
      && r.value.effects == [JobModified(r.value.next.store.jobs[jobId])]
  {
    var conn :- GetProviderConnection(d.connections, socket);
    var job :- GetAndVerifyJob(d.store.jobs, conn, jobId);
    var next :- Apply(job, action, now);
    Ok(Step(d.(store := d.store.(jobs := ReplaceJob(d.store.jobs, next))), [JobModified(next)]))
  }

  lemma RunActionKeepsValid(d: Dispatcher, socket: SocketId, jobId: ObjectId, action: Action, now: Timestamp)
    requires Valid(d)
    requires RunAction(d, socket, jobId, action, now).Ok?
    ensures Valid(RunAction(d, socket, jobId, action, now).value.next)
  {
  }

  /** `accept-job`: allowed for any job of the requesting provider, whatever its state. */
  function AcceptJob(d: Dispatcher, socket: SocketId, jobId: ObjectId, now: Timestamp): (r: Result<Step>)
    ensures r.Ok? <==> Authorized(d, socket, jobId)
    ensures r.Ok? && JobsKeyed(d.store.jobs) ==>
      r.value.next.store.jobs == d.store.jobs[jobId := d.store.jobs[jobId].(state := Accepted(now))]
  {
    RunAction(d, socket, jobId, AcceptAction, now)
  }

  /** `reject-job`: allowed for any job of the requesting provider, whatever its state. */
  function RejectJob(d: Dispatcher, socket: SocketId, jobId: ObjectId, now: Timestamp): (r: Result<Step>)
    ensures r.Ok? <==> Authorized(d, socket, jobId)
    ensures r.Ok? && JobsKeyed(d.store.jobs) ==>
      r.value.next.store.jobs == d.store.jobs[jobId := d.store.jobs[jobId].(state := Rejected(now))]
  {
    RunAction(d, socket, jobId, RejectAction, now)
  }

  /** `cancel-job`: only an accepted job of the requesting provider. */
  function CancelJob(d: Dispatcher, socket: SocketId, jobId: ObjectId, now: Timestamp): (r: Result<Step>)
    ensures r.Ok? <==> Authorized(d, socket, jobId) && d.store.jobs[jobId].state.Accepted?
    ensures Authorized(d, socket, jobId) && !d.store.jobs[jobId].state.Accepted? ==> r == Err(NotAccepted)
    ensures r.Ok? && JobsKeyed(d.store.jobs) ==>
      var job := d.store.jobs[jobId];
      r.value.next.store.jobs == d.store.jobs[jobId := job.(state := Canceled(job.state.acceptTimestamp, now))]
  {
    RunAction(d, socket, jobId, CancelAction, now)
  }

  /** `complete-job`: only an accepted or canceled job of the requesting provider; the
      result is stored as given. */
  function CompleteJob(d: Dispatcher, socket: SocketId, jobId: ObjectId, result: JobResult, now: Timestamp): (r: Result<Step>)
    ensures r.Ok? <==>
      Authorized(d, socket, jobId) && (d.store.jobs[jobId].state.Accepted? || d.store.jobs[jobId].state.Canceled?)
    ensures Authorized(d, socket, jobId) ==>
      (d.store.jobs[jobId].state.Accepted? || d.store.jobs[jobId].state.Canceled? || r == Err(NotAcceptedOrCanceled))
    ensures r.Ok? && JobsKeyed(d.store.jobs) ==>
      var job := d.store.jobs[jobId];
      r.value.next.store.jobs ==
        d.store.jobs[jobId := job.(state := Completed(job.state.acceptTimestamp, now, result))]
  {
    RunAction(d, socket, jobId, CompleteAction(result), now)
  }

  /** Only the owning provider can move a job: a request from a connection of another
      provider fails and changes nothing, whatever the event. */
  lemma OtherProvidersCannotTouchJob(d: Dispatcher, socket: SocketId, jobId: ObjectId, action: Action, now: Timestamp)
    requires Valid(d)
    requires jobId in d.store.jobs
    requires FindBySocket(d.connections, socket).Some?
    requires FindBySocket(d.connections, socket).value.provider.id != d.store.jobs[jobId].providerId
    ensures RunAction(d, socket, jobId, action, now) == Err(WrongProvider)
  {
  }

  // ----------------------------------------------------------- disconnect

  /** `job` belongs to the provider registered on `socket`. */
  predicate OwnedBySocket(conns: seq<ProviderConnection>, socket: SocketId, job: Job) {
    FindBySocket(conns, socket).Some? && job.providerId == FindBySocket(conns, socket).value.provider.id
  }

  /** A job after disconnect recovery, whether or not recovery changes it. */
  function RecoverOrKeep(job: Job, now: Timestamp): Job {
    match Recover(job, now)
    case Some(j) => j
    case None => job
  }

  /** The recovery pass after visiting the jobs in `done`: each visited job is
      recovered, every other job is untouched, and each changed job has been announced
      exactly once with its new value. */
  predicate RecoveredSoFar(jobs: map<ObjectId, Job>, now: Timestamp, done: set<ObjectId>,
                           next: map<ObjectId, Job>, effects: seq<Effect>)
  {
    && next.Keys == jobs.Keys && JobsKeyed(next)
    && (forall id :: id in jobs && id !in done ==> next[id] == jobs[id])
    && (forall id :: id in done ==> id in jobs && next[id] == RecoverOrKeep(jobs[id], now))
    && (forall e :: e in effects ==>
          && e.JobModified? && e.job.id in done
          && Recover(jobs[e.job.id], now).Some? && e.job == next[e.job.id])
    && (forall id :: id in done && Recover(jobs[id], now).Some? ==> JobModified(next[id]) in effects)
    && (forall i, j :: 0 <= i < j < |effects| ==> effects[i].job.id != effects[j].job.id)
  }

  /** Visiting a job recovery leaves alone extends the pass without a change. */
  lemma RecoverStepKeep(jobs: map<ObjectId, Job>, now: Timestamp, done: set<ObjectId>,
                        next: map<ObjectId, Job>, effects: seq<Effect>, id: ObjectId)
    requires id in jobs && id !in done && Recover(jobs[id], now).None?
    requires RecoveredSoFar(jobs, now, done, next, effects)
    ensures RecoveredSoFar(jobs, now, done + {id}, next, effects)
  {
  }

  /** Visiting a job recovery changes replaces it and announces the new value. */
  lemma RecoverStepReplace(jobs: map<ObjectId, Job>, now: Timestamp, done: set<ObjectId>,
                           next: map<ObjectId, Job>, effects: seq<Effect>, id: ObjectId, job: Job)
    requires JobsKeyed(jobs) && id in jobs && id !in done && Recover(jobs[id], now) == Some(job)
    requires RecoveredSoFar(jobs, now, done, next, effects)
    ensures RecoveredSoFar(jobs, now, done + {id}, ReplaceJob(next, job), effects + [JobModified(job)])
  {
    var next' := ReplaceJob(next, job);
    var effects' := effects + [JobModified(job)];
    var done' := done + {id};
    assert job.id == id;
    assert next'.Keys == jobs.Keys && JobsKeyed(next');
    assert forall x :: x in jobs && x !in done' ==> next'[x] == jobs[x];
    assert forall x :: x in done' ==> x in jobs && next'[x] == RecoverOrKeep(jobs[x], now);
    forall e | e in effects'
      ensures e.JobModified? && e.job.id in done' && Recover(jobs[e.job.id], now).Some? && e.job == next'[e.job.id]
    {
      if e in effects {
        assert e.job.id != id;
      }
    }
    forall x | x in done' && Recover(jobs[x], now).Some? ensures JobModified(next'[x]) in effects' {
      if x != id {
        assert JobModified(next[x]) in effects;
      } else {
        assert effects'[|effects|] == JobModified(next'[x]);
      }
    }
    forall k, l | 0 <= k < l < |effects'| ensures effects'[k].job.id != effects'[l].job.id {
      if l == |effects| {
        assert effects'[k] in effects;
      }
    }
  }

  /** The recovery pass over the jobs of one provider: each job the pass changes is
      replaced and announced exactly once. The jobs are visited in no particular order,
      as the dispatcher's concurrent replacements are. */
  method RecoverJobs(jobs: map<ObjectId, Job>, providerId: ObjectId, now: Timestamp)
    returns (next: map<ObjectId, Job>, effects: seq<Effect>)
    requires JobsKeyed(jobs)
    ensures next.Keys == jobs.Keys && JobsKeyed(next)
    ensures forall id :: id in jobs && jobs[id].providerId != providerId ==> next[id] == jobs[id]
    ensures forall id :: id in jobs && jobs[id].providerId == providerId ==> next[id] == RecoverOrKeep(jobs[id], now)
    ensures forall e :: e in effects ==>
      && e.JobModified? && e.job.id in jobs && jobs[e.job.id].providerId == providerId
      && Recover(jobs[e.job.id], now).Some? && e.job == next[e.job.id]
    ensures forall id :: id in jobs && jobs[id].providerId == providerId && Recover(jobs[id], now).Some? ==>
      JobModified(next[id]) in effects
    ensures forall i, j :: 0 <= i < j < |effects| ==> effects[i].job.id != effects[j].job.id
  {
    var pending := set id | id in jobs && jobs[id].providerId == providerId;
    var done: set<ObjectId> := {};
    next := jobs;
    effects := [];
    while pending != {}
      invariant pending !! done
      invariant forall id :: id in pending || id in done <==> id in jobs && jobs[id].providerId == providerId
      invariant RecoveredSoFar(jobs, now, done, next, effects)
      decreases pending
    {
      var id :| id in pending;
      var recovered := Recover(jobs[id], now);
      if recovered.Some? {
        RecoverStepReplace(jobs, now, done, next, effects, id, recovered.value);
        next := ReplaceJob(next, recovered.value);
        effects := effects + [JobModified(recovered.value)];
      } else {
        RecoverStepKeep(jobs, now, done, next, effects, id);
      }
      pending := pending - {id};
      done := done + {id};
    }
  }

  /** Unregisters `socket` and, if it was registered, recovers the jobs of its provider:
      accepted jobs are canceled, dispatched jobs rejected, each announced once; every
      other job, and every job of another provider, is left alone. */
  method OnDisconnect(d: Dispatcher, socket: SocketId, now: Timestamp) returns (r: Step)
    requires JobsKeyed(d.store.jobs)
    ensures r.next.connections == RemoveSocket(d.connections, socket)
    ensures r.next.store.(jobs := d.store.jobs) == d.store
    ensures r.next.store.jobs.Keys == d.store.jobs.Keys
    ensures !HasSocket(d.connections, socket) ==> r.next.store == d.store && r.effects == []
    ensures forall id :: id in d.store.jobs && !OwnedBySocket(d.connections, socket, d.store.jobs[id]) ==>
      r.next.store.jobs[id] == d.store.jobs[id]
    ensures forall id :: id in d.store.jobs && OwnedBySocket(d.connections, socket, d.store.jobs[id]) ==>
      var job := d.store.jobs[id];
      && (job.state.Accepted? ==> r.next.store.jobs[id] == job.(state := Canceled(job.state.acceptTimestamp, now)))
      && (job.state.Dispatched? ==> r.next.store.jobs[id] == job.(state := Rejected(now)))
      && (job.state.Rejected? || job.state.Canceled? || job.state.Completed? ==> r.next.store.jobs[id] == job)
    ensures forall e :: e in r.effects ==>
      && e.JobModified? && e.job.id in d.store.jobs
      && OwnedBySocket(d.connections, socket, d.store.jobs[e.job.id])
      && e.job != d.store.jobs[e.job.id] && e.job == r.next.store.jobs[e.job.id]
    ensures forall id :: id in d.store.jobs && r.next.store.jobs[id] != d.store.jobs[id] ==>
      JobModified(r.next.store.jobs[id]) in r.effects
    ensures forall i, j :: 0 <= i < j < |r.effects| ==> r.effects[i].job.id != r.effects[j].job.id
    ensures Valid(d) ==> Valid(r.next)
  {
    var conn := FindBySocket(d.connections, socket);
    var remaining := RemoveSocket(d.connections, socket);
    if Valid(d) {
      RemoveSocketKeepsUniqueTokens(d.connections, socket);
    }
    if conn.None? {
      return Step(Dispatcher(remaining, d.store), []);
    }
    var jobs, effects := RecoverJobs(d.store.jobs, conn.value.provider.id, now);
    r := Step(Dispatcher(remaining, d.store.(jobs := jobs)), effects);
  }

  // -------------------------------------------------------------- queries

  function ToQueryMessage(q: Query): QueryMessage {
    QueryMessage(q.id, q.timestamp, q.protocol, q.hostname, q.pathname, q.port, q.search)
  }

  /** Looks a query up by id. */
  function GetQuery(queries: map<ObjectId, Query>, queryId: ObjectId): (r: Result<QueryMessage>)
    ensures r.Ok? <==> queryId in queries
    ensures r.Err? ==> r.message == QueryNotFound
    ensures r.Ok? ==>
      var q := queries[queryId];
      && r.value.id == queryId && r.value.timestamp == q.timestamp && r.value.protocol == q.protocol
      && r.value.hostname == q.hostname && r.value.pathname == q.pathname
      && r.value.port == q.port && r.value.search == q.search
  {
    if queryId !in queries then Err(QueryNotFound)
    else
      var q := queries[queryId];
      Ok(QueryMessage(queryId, q.timestamp, q.protocol, q.hostname, q.pathname, q.port, q.search))
  }

  /** The `dispatched` job a query makes for one connection: the connection's provider
      and geolocation, stamped with the dispatch time. */
  function JobFor(c: ProviderConnection, query: Query, jobId: ObjectId, now: Timestamp): (job: Job)
    ensures job.id == jobId && job.providerId == c.provider.id && job.queryId == query.id
    ensures job.state == Dispatched && job.dispatchTimestamp == now
  {
    Job(jobId, c.provider.id, query.id, now, c.countryCode, c.regionCode, c.ispName, Dispatched)
  }

  /** The fresh ids a fan-out needs: one per connection, pairwise distinct, none in use. */
  predicate FreshJobIds(d: Dispatcher, jobIds: seq<ObjectId>) {
    && |jobIds| == |d.connections|
    && (forall i, j :: 0 <= i < j < |jobIds| ==> jobIds[i] != jobIds[j])
    && (forall i :: 0 <= i < |jobIds| ==> jobIds[i] !in d.store.jobs)
  }

  /** The jobs and announcements after fanning `query` out to the first `n` connections:
      the old jobs untouched, one new job per connection so far, and for each a creation
      followed by the hand-off to that connection's socket. */
  predicate FannedOut(d: Dispatcher, query: Query, jobIds: seq<ObjectId>, now: Timestamp, n: nat,
                      jobs: map<ObjectId, Job>, effects: seq<Effect>)
  {
    && n <= |jobIds| == |d.connections|
    && (forall id :: id in jobs ==> id in d.store.jobs || id in jobIds[..n])
    && (forall id :: id in d.store.jobs ==> id in jobs && jobs[id] == d.store.jobs[id])
    && (forall k :: 0 <= k < n ==>
          jobIds[k] in jobs && jobs[jobIds[k]] == JobFor(d.connections[k], query, jobIds[k], now))
    && |effects| == 2 * n
    && (forall k :: 0 <= k < n ==>
          && effects[2 * k] == JobCreated(JobFor(d.connections[k], query, jobIds[k], now))
          && effects[2 * k + 1] == JobDispatched(d.connections[k].socket, query, jobIds[k]))
  }

  /** The whole outcome of dispatching `query`: the registry, providers and clients
      unchanged, the query stored under its id, and every connection given its job. */
  predicate IsFanOut(d: Dispatcher, query: Query, jobIds: seq<ObjectId>, now: Timestamp, r: Step) {
    && r.next.connections == d.connections
    && r.next.store == d.store.(queries := d.store.queries[query.id := query], jobs := r.next.store.jobs)
    && FannedOut(d, query, jobIds, now, |jobIds|, r.next.store.jobs, r.effects)
  }

  /** Handing the query to one more connection extends the fan-out by that connection's
      job and its two announcements. */
  lemma FanOutStep(d: Dispatcher, query: Query, jobIds: seq<ObjectId>, now: Timestamp, n: nat,
                   jobs: map<ObjectId, Job>, effects: seq<Effect>)
    requires FreshJobIds(d, jobIds) && n < |jobIds|
    requires FannedOut(d, query, jobIds, now, n, jobs, effects)
    ensures
      var job := JobFor(d.connections[n], query, jobIds[n], now);
      FannedOut(d, query, jobIds, now, n + 1, jobs[jobIds[n] := job],
                effects + [JobCreated(job), JobDispatched(d.connections[n].socket, query, jobIds[n])])
    ensures JobsKeyed(jobs) ==> JobsKeyed(jobs[jobIds[n] := JobFor(d.connections[n], query, jobIds[n], now)])
  {
    var job := JobFor(d.connections[n], query, jobIds[n], now);
    var jobs' := jobs[jobIds[n] := job];
    var effects' := effects + [JobCreated(job), JobDispatched(d.connections[n].socket, query, jobIds[n])];
    assert jobIds[..n + 1] == jobIds[..n] + [jobIds[n]];
    forall k | 0 <= k < n
      ensures jobIds[k] in jobs' && jobs'[jobIds[k]] == JobFor(d.connections[k], query, jobIds[k], now)
    {
      assert jobIds[k] != jobIds[n];
    }
    forall k | 0 <= k < n + 1
      ensures effects'[2 * k] == JobCreated(JobFor(d.connections[k], query, jobIds[k], now))
      ensures effects'[2 * k + 1] == JobDispatched(d.connections[k].socket, query, jobIds[k])
    {
      if k < n {
        assert effects'[2 * k] == effects[2 * k] && effects'[2 * k + 1] == effects[2 * k + 1];
      }
    }
  }

  /** Stores `query` and fans it out: one `dispatched` job per connection registered at
      this moment, with the connection's provider and geolocation, each stored and then
      handed to the connection's socket. With no connection the query is still stored
      and no job is made. The job ids are fresh and distinct. */
  method DispatchQuery(d: Dispatcher, query: Query, jobIds: seq<ObjectId>, now: Timestamp)
    returns (r: Step, message: QueryMessage)
    requires FreshJobIds(d, jobIds)
    requires query.id !in d.store.queries
    ensures IsFanOut(d, query, jobIds, now, r)
    ensures GetQuery(r.next.store.queries, query.id) == Ok(message)
    ensures forall id :: id in r.next.store.jobs <==> id in d.store.jobs || id in jobIds
    ensures |d.connections| == 0 ==> r.next.store.jobs == d.store.jobs && r.effects == []
    ensures Valid(d) ==> Valid(r.next)
  {
    var jobs := d.store.jobs;
    var effects: seq<Effect> := [];
    var i := 0;
    while i < |d.connections|
      invariant 0 <= i <= |d.connections|
      invariant FannedOut(d, query, jobIds, now, i, jobs, effects)
      invariant JobsKeyed(d.store.jobs) ==> JobsKeyed(jobs)
    {
      FanOutStep(d, query, jobIds, now, i, jobs, effects);
      var c := d.connections[i];
      var job := JobFor(c, query, jobIds[i], now);
      jobs := jobs[jobIds[i] := job];
      effects := effects + [JobCreated(job), JobDispatched(c.socket, query, jobIds[i])];
      i := i + 1;
    }
    assert jobIds[..i] == jobIds;
    var store := d.store.(queries := d.store.queries[query.id := query], jobs := jobs);
    r := Step(d.(store := store), effects);
    message := ToQueryMessage(query);
  }

  /** Every new job of a fan-out is the query's, dispatched at `now` to the provider of
      the connection it was made for, and its creation is announced before its hand-off. */
  lemma FanOutJobs(d: Dispatcher, query: Query, jobIds: seq<ObjectId>, now: Timestamp, r: Step, i: int)
    requires IsFanOut(d, query, jobIds, now, r) && 0 <= i < |jobIds|
    ensures jobIds[i] in r.next.store.jobs
    ensures
      var job := r.next.store.jobs[jobIds[i]];
      && job.queryId == query.id && job.state == Dispatched && job.dispatchTimestamp == now
      && job.providerId == d.connections[i].provider.id
      && job.countryCode == d.connections[i].countryCode && job.regionCode == d.connections[i].regionCode
      && job.ispName == d.connections[i].ispName
      && r.effects[2 * i] == JobCreated(job)
      && r.effects[2 * i + 1] == JobDispatched(d.connections[i].socket, query, jobIds[i])
  {
  }

  /** Under the registry invariant, the jobs of one dispatch go to pairwise distinct
      providers: no provider is asked twice to probe the same query. */
  lemma DispatchedJobsHaveDistinctProviders(d: Dispatcher, query: Query, jobIds: seq<ObjectId>,
                                            now: Timestamp, r: Step)
    requires Valid(d)
    requires IsFanOut(d, query, jobIds, now, r)
    ensures forall i, j :: 0 <= i < j < |jobIds| ==>
      r.next.store.jobs[jobIds[i]].providerId != r.next.store.jobs[jobIds[j]].providerId
  {
    ValidConnectionsHaveDistinctProviders(d);
    forall i, j | 0 <= i < j < |jobIds|
      ensures r.next.store.jobs[jobIds[i]].providerId != r.next.store.jobs[jobIds[j]].providerId
    {
      FanOutJobs(d, query, jobIds, now, r, i);
      FanOutJobs(d, query, jobIds, now, r, j);
    }
  }

  /** `query-api`: the token must name an API client. The stored query records that
      client, takes its URL parts from the request and its time from `now`, and is
      fanned out to every connected provider. */
  method DispatchApiQuery(d: Dispatcher, request: QueryRequest, token: string, queryId: ObjectId,
                          jobIds: seq<ObjectId>, now: Timestamp)
    returns (r: Step, result: Result<QueryMessage>)
    requires FreshJobIds(d, jobIds)
    requires queryId !in d.store.queries
    ensures token !in d.store.apiClients ==> result == Err(InvalidToken) && r == Step(d, [])
    ensures result.Ok? <==> token in d.store.apiClients
    ensures result.Ok? ==>
      && token in d.store.apiClients
      && IsFanOut(d, Query(queryId, now, request.protocol, Some(d.store.apiClients[token].id),
                           request.hostname, request.pathname, request.port, request.search), jobIds, now, r)
    ensures result.Ok? ==> GetQuery(r.next.store.queries, queryId) == result
    ensures Valid(d) ==> Valid(r.next)
  {
    if token !in d.store.apiClients {
      return Step(d, []), Err(InvalidToken);
    }
    var query := Query(queryId, now, request.protocol, Some(d.store.apiClients[token].id),
                       request.hostname, request.pathname, request.port, request.search);
    var message;
    r, message := DispatchQuery(d, query, jobIds, now);
    result := Ok(message);
  }

  /** `query-website`: the captcha check must succeed. Its failure to run (a missing
      secret, a failed request) is reported as it is; a negative verdict is "Captcha
      verification failed". The stored query records no client and is fanned out like
      an API query. */
  method DispatchWebsiteQuery(d: Dispatcher, request: QueryRequest, captcha: Result<bool>, queryId: ObjectId,
                              jobIds: seq<ObjectId>, now: Timestamp)
    returns (r: Step, result: Result<QueryMessage>)
    requires FreshJobIds(d, jobIds)
    requires queryId !in d.store.queries
    ensures captcha.Err? ==> result == Err(captcha.message) && r == Step(d, [])
    ensures captcha == Ok(false) ==> result == Err(CaptchaFailed) && r == Step(d, [])
    ensures result.Ok? <==> captcha == Ok(true)
    ensures result.Ok? ==>
      IsFanOut(d, Query(queryId, now, request.protocol, None,
                        request.hostname, request.pathname, request.port, request.search), jobIds, now, r)
    ensures result.Ok? ==> GetQuery(r.next.store.queries, queryId) == result
    ensures Valid(d) ==> Valid(r.next)
  {
    if captcha.Err? {
      return Step(d, []), Err(captcha.message);
    }
    if !captcha.value {
      return Step(d, []), Err(CaptchaFailed);
    }
    var query := Query(queryId, now, request.protocol, None,
                       request.hostname, request.pathname, request.port, request.search);
    var message;
    r, message := DispatchQuery(d, query, jobIds, now);
    result := Ok(message);
  }
}

=== FILE: jobs.dfy ===
/** The persisted job record: shared base fields and one variant per lifecycle state,
    plus the three kinds of probe result a completed job carries. */
module Jobs {
  import opened Results

  /** A database identifier, represented by its hexadecimal rendering. */
  type ObjectId = string

  /** A point in time, in milliseconds. */
  type Timestamp = int

  datatype JobResult =
    | ResultSuccess(httpCode: int, executionTime: int)
    | ResultTimeout(executionTime: int)
    | ResultError(errorCode: string)

  /** The `state` discriminant of a result. */
  function ResultTag(r: JobResult): string {
    match r
    case ResultSuccess(_, _) => "success"
    case ResultTimeout(_) => "timeout"
    case ResultError(_) => "error"
  }

  /** The per-state part of a job: the fields each variant adds to the base. */
  datatype JobState =
    | Dispatched
    | Accepted(acceptTimestamp: Timestamp)
    | Rejected(rejectTimestamp: Timestamp)
    | Canceled(acceptTimestamp: Timestamp, cancelTimestamp: Timestamp)
    | Completed(acceptTimestamp: Timestamp, completeTimestamp: Timestamp, result: JobResult)

  datatype Job = Job(
    id: ObjectId,
    providerId: ObjectId,
    queryId: ObjectId,
    dispatchTimestamp: Timestamp,
    countryCode: string,
    regionCode: string,
    ispName: string,
    state: JobState)

  /** The `jobState` discriminant. */
  function StateTag(s: JobState): string {
    match s
    case Dispatched => "dispatched"
    case Accepted(_) => "accepted"
    case Rejected(_) => "rejected"
    case Canceled(_, _) => "canceled"
    case Completed(_, _, _) => "completed"
  }

  /** `a` and `b` agree on every base field: the job's identity and geolocation. */
  predicate SameBase(a: Job, b: Job) {
    && a.id == b.id
    && a.providerId == b.providerId
    && a.queryId == b.queryId
    && a.dispatchTimestamp == b.dispatchTimestamp
    && a.countryCode == b.countryCode
    && a.regionCode == b.regionCode
    && a.ispName == b.ispName
  }

  /** The accept time a state records, if it records one. */
  function AcceptTime(s: JobState): (r: Option<Timestamp>)
    ensures r.Some? <==> s.Accepted? || s.Canceled? || s.Completed?
  {
    match s
    case Accepted(t) => Some(t)
    case Canceled(t, _) => Some(t)
    case Completed(t, _, _) => Some(t)
    case _ => None
  }

  /** The `jobState` tag names the variant: equal tags mean the same variant. */
  lemma StateTagDiscriminates(s: JobState, u: JobState)
    ensures StateTag(s) == StateTag(u) <==>
      (s.Dispatched? && u.Dispatched?) || (s.Accepted? && u.Accepted?) ||
      (s.Rejected? && u.Rejected?) || (s.Canceled? && u.Canceled?) ||
      (s.Completed? && u.Completed?)
  {
  }

  /** The `state` tag names the result kind. */
  lemma ResultTagDiscriminates(r: JobResult, u: JobResult)
    ensures ResultTag(r) == ResultTag(u) <==>
      (r.ResultSuccess? && u.ResultSuccess?) || (r.ResultTimeout? && u.ResultTimeout?) ||
      (r.ResultError? && u.ResultError?)
  {
  }
}

=== FILE: json.dfy ===
/** Values as they arrive over a Socket.IO connection, before any schema has looked at
    them. Numbers are modelled as integers: the core only copies them. */
module Json {
  import opened Results

  datatype Json =
    | JNull
    | JBool(b: bool)
    | JNum(n: int)
    | JStr(s: string)
    | JArr(items: seq<Json>)
    | JObj(fields: map<string, Json>)

  /** The property read `v[key]`; `None` stands for `undefined`. */
  function Get(v: Json, key: string): (r: Option<Json>)
    ensures r.Some? <==> v.JObj? && key in v.fields
    ensures r.Some? ==> r.value == v.fields[key]
  {
    if v.JObj? && key in v.fields then Some(v.fields[key]) else None
  }

  /** `v[key]` when it is a string. */
  function GetString(v: Json, key: string): (r: Option<string>)
    ensures r.Some? <==> Get(v, key).Some? && Get(v, key).value.JStr?
    ensures r.Some? ==> Get(v, key) == Some(JStr(r.value))
  {
    match Get(v, key)
    case Some(JStr(s)) => Some(s)
    case _ => None
  }

  /** `v[key]` when it is a number. */
  function GetNumber(v: Json, key: string): (r: Option<int>)
    ensures r.Some? <==> Get(v, key).Some? && Get(v, key).value.JNum?
    ensures r.Some? ==> Get(v, key) == Some(JNum(r.value))
  {
    match Get(v, key)
    case Some(JNum(n)) => Some(n)
    case _ => None
  }

  /** JavaScript truthiness of a property value; `undefined`, `null`, `false`, `0` and
      the empty string are falsy, everything else is truthy. */
  predicate Truthy(v: Option<Json>) {
    match v
    case None => false
    case Some(JNull) => false
    case Some(JBool(b)) => b
    case Some(JNum(n)) => n != 0
    case Some(JStr(s)) => s != ""
    case Some(_) => true
  }

  /** `v` is an object holding every property of the object `shape` with the same value,
      and possibly more: what a structural `t.type` check accepts. */
  predicate Extends(v: Json, shape: Json) {
    && v.JObj?
    && shape.JObj?
    && forall k :: k in shape.fields ==> k in v.fields && v.fields[k] == shape.fields[k]
  }
}

=== FILE: provider_manager.dfy ===
/** The provider-facing side: the handshake, the four inbound provider events with
    their acknowledgement rule, and the `dispatch-job` message a provider receives. */
module ProviderManager {
  import opened Results
  import opened Json
  import opened Jobs
  import opened Records
  import opened Schemas
  import opened Transitions
  import opened Dispatcher
  import ApiManager

  const HandshakeMismatch := "Query params does not match schema"

  datatype ProviderEvent = AcceptJobEvent | RejectJobEvent | CancelJobEvent | CompleteJobEvent

  /** The outcome of one inbound event: the dispatcher afterwards, what it announced,
      and the acknowledgement (`None` is `null`). */
  datatype Reply = Reply(state: Dispatcher, effects: seq<Effect>, ack: Option<string>)

  // ------------------------------------------------------------- handshake

  /** Connection middleware: the handshake query must carry a string token, and the
      dispatcher must accept the provider; otherwise the connection is refused with the
      error. */
  function InitMiddleware(d: Dispatcher, socket: SocketId, handshake: Json, ipInfo: Result<IpInfo>): (r: Result<Dispatcher>)
    ensures DecodeStringField(handshake, "token").None? ==> r == Err(HandshakeMismatch)
    ensures DecodeStringField(handshake, "token").Some? ==>
      r == InitProvider(d, socket, DecodeStringField(handshake, "token").value, ipInfo)
  {
    match DecodeStringField(handshake, "token")
    case None => Err(HandshakeMismatch)
    case Some(token) => InitProvider(d, socket, token, ipInfo)
  }

  /** While one connection holds a token, every further handshake with that token is
      refused, so at most one connection per token exists. */
  lemma HandshakesKeepOneConnectionPerToken(d: Dispatcher, s1: SocketId, s2: SocketId, handshake: Json,
                                            ip1: Result<IpInfo>, ip2: Result<IpInfo>)
    requires Valid(d)
    requires InitMiddleware(d, s1, handshake, ip1).Ok?
    ensures Valid(InitMiddleware(d, s1, handshake, ip1).value)
    ensures InitMiddleware(InitMiddleware(d, s1, handshake, ip1).value, s2, handshake, ip2) ==
      Err(AlreadyInitialized)
  {
    var token := DecodeStringField(handshake, "token").value;
    InitProviderKeepsValid(d, s1, token, ip1);
    DuplicateTokenRefused(d, s1, s2, token, ip1, ip2);
  }

  // -------------------------------------------------------- provider events

  /** The schema-checked request an event carries: its job id and the transition it
      asks for. */
  function ParseRequest(event: ProviderEvent, data: Json): (r: Option<(ObjectId, Action)>)
    ensures event != CompleteJobEvent ==> (r.Some? <==> DecodeStringField(data, "jobId").Some?)
    ensures event == CompleteJobEvent ==> (r.Some? <==> DecodeComplete(data).Some?)
    ensures r.Some? ==> (event == AcceptJobEvent <==> r.value.1 == AcceptAction)
    ensures r.Some? ==> (event == RejectJobEvent <==> r.value.1 == RejectAction)
    ensures r.Some? ==> (event == CancelJobEvent <==> r.value.1 == CancelAction)
    ensures r.Some? && event != CompleteJobEvent ==>
      DecodeStringField(data, "jobId").Some? && r.value.0 == DecodeStringField(data, "jobId").value
    ensures r.Some? && event == CompleteJobEvent ==>
      r.value == (DecodeComplete(data).value.jobId, CompleteAction(DecodeComplete(data).value.result))
  {
    match event
    case AcceptJobEvent =>
      var jobId :- DecodeStringField(data, "jobId");
      Some((jobId, AcceptAction))
    case RejectJobEvent =>
      var jobId :- DecodeStringField(data, "jobId");
      Some((jobId, RejectAction))
    case CancelJobEvent =>
      var jobId :- DecodeStringField(data, "jobId");
      Some((jobId, CancelAction))
    case CompleteJobEvent =>
      var m :- DecodeComplete(data);
      Some((m.jobId, CompleteAction(m.result)))
  }

  /** The acknowledgement rule: `null` when the dispatcher operation succeeds, the
      error's message when it fails, in which case nothing changes. */
  function Acknowledged(d: Dispatcher, outcome: Result<Step>): (r: Reply)
    ensures r.ack.None? <==> outcome.Ok?
    ensures outcome.Ok? ==> r.state == outcome.value.next && r.effects == outcome.value.effects
    ensures outcome.Err? ==> r.ack == Some(outcome.message) && r.state == d && r.effects == []
  {
    match outcome
    case Ok(step) => Reply(step.next, step.effects, None)
    case Err(e) => Reply(d, [], Some(e))
  }

  /** One inbound provider event: a payload that fails its schema is acknowledged with
      the schema error and never reaches the dispatcher; otherwise the event runs the
      matching dispatcher operation for the same socket and job id. */
  function OnProviderEvent(d: Dispatcher, socket: SocketId, event: ProviderEvent, data: Json, now: Timestamp): (r: Reply)
    ensures ParseRequest(event, data).None? ==> r == Reply(d, [], Some(SchemaMismatch))
    ensures event == AcceptJobEvent && DecodeStringField(data, "jobId").Some? ==>
      r == Acknowledged(d, AcceptJob(d, socket, DecodeStringField(data, "jobId").value, now))
    ensures event == RejectJobEvent && DecodeStringField(data, "jobId").Some? ==>
      r == Acknowledged(d, RejectJob(d, socket, DecodeStringField(data, "jobId").value, now))
    ensures event == CancelJobEvent && DecodeStringField(data, "jobId").Some? ==>
      r == Acknowledged(d, CancelJob(d, socket, DecodeStringField(data, "jobId").value, now))
    ensures event == CompleteJobEvent && DecodeComplete(data).Some? ==>
      var m := DecodeComplete(data).value;
      r == Acknowledged(d, CompleteJob(d, socket, m.jobId, m.result, now))
  {
    match ParseRequest(event, data)
    case None => Reply(d, [], Some(SchemaMismatch))
    case Some((jobId, action)) => Acknowledged(d, RunAction(d, socket, jobId, action, now))
  }

  /** A `null` acknowledgement means the socket is registered, the job is its
      provider's, and only that job changed. */
  lemma NullAckMeansOwnedJob(d: Dispatcher, socket: SocketId, event: ProviderEvent, data: Json, now: Timestamp)
    requires JobsKeyed(d.store.jobs)
    requires OnProviderEvent(d, socket, event, data, now).ack.None?
    ensures ParseRequest(event, data).Some?
    ensures Authorized(d, socket, ParseRequest(event, data).value.0)
    ensures OnlyJobChanged(d, OnProviderEvent(d, socket, event, data, now).state, ParseRequest(event, data).value.0)
  {
  }

  /** The result a provider submits reaches callers unchanged: after a successful
      `complete-job` the job's message carries exactly the validated result, which
      reads back to the same value. */
  lemma CompletedResultReachesCallers(d: Dispatcher, socket: SocketId, data: Json, now: Timestamp)
    requires JobsKeyed(d.store.jobs)
    requires OnProviderEvent(d, socket, CompleteJobEvent, data, now).ack.None?
    ensures DecodeComplete(data).Some?
    ensures DecodeComplete(data).value.jobId in OnProviderEvent(d, socket, CompleteJobEvent, data, now).state.store.jobs
    ensures
      var jobs := OnProviderEvent(d, socket, CompleteJobEvent, data, now).state.store.jobs;
      && DecodeComplete(data).Some? && DecodeComplete(data).value.jobId in jobs
      && var m := DecodeComplete(data).value;
         jobs[m.jobId].state.Completed? && jobs[m.jobId].state.result == m.result
    ensures
      var jobs := OnProviderEvent(d, socket, CompleteJobEvent, data, now).state.store.jobs;
      && DecodeComplete(data).Some? && DecodeComplete(data).value.jobId in jobs
      && var m := DecodeComplete(data).value;
         CompletedResultMessage(jobs[m.jobId], m.result, Get(data, "result"))
  {
    var m := DecodeComplete(data).value;
    DecodeCompleteExact(data, m);
    DecodeJobResultExact(EncodeJobResult(m.result), m.result);
  }

  /** The broadcast message of a completed `job` carries the encoding of `result`, the
      submitted value extends that encoding, and the encoding decodes back to `result`. */
  predicate CompletedResultMessage(job: Job, result: JobResult, submitted: Option<Json>) {
    && job.state.Completed?
    && submitted.Some?
    && ApiManager.GetJobMessage(job).fields["result"] == EncodeJobResult(result)
    && Extends(submitted.value, EncodeJobResult(result))
    && DecodeJobResult(EncodeJobResult(result)) == Some(result)
  }

  // ----------------------------------------------------------- dispatch-job

  /** The `dispatch-job` message: the job id and the URL parts of the query. */
  function DispatchJobMessage(query: Query, jobId: ObjectId): (r: Json)
    ensures r.JObj?
    ensures r.fields.Keys == {"jobId", "queryId", "protocol", "hostname", "pathname", "port", "search"}
    ensures r.fields["jobId"] == JStr(jobId) && r.fields["queryId"] == JStr(query.id)
  {
    JObj(map[
      "jobId" := JStr(jobId),
      "queryId" := JStr(query.id),
      "protocol" := EncodeProtocol(query.protocol),
      "hostname" := JStr(query.hostname),
      "pathname" := JStr(query.pathname),
      "port" := ApiManager.PortJson(query.port),
      "search" := JStr(query.search)])
  }

  /** What a provider reads from a `dispatch-job` message. */
  datatype ProbeOrder = ProbeOrder(jobId: ObjectId, queryId: ObjectId, request: QueryRequest)

  function DecodePort(v: Option<Json>): Option<Option<int>> {
    match v
    case Some(JNull) => Some(None)
    case Some(JNum(p)) => Some(Some(p))
    case _ => None
  }

  function DecodeDispatchJob(v: Json): Option<ProbeOrder> {
    var jobId :- GetString(v, "jobId");
    var queryId :- GetString(v, "queryId");
    var protocol :- DecodeProtocol(Get(v, "protocol"));
    var hostname :- GetString(v, "hostname");
    var pathname :- GetString(v, "pathname");
    var port :- DecodePort(Get(v, "port"));
    var search :- GetString(v, "search");
    Some(ProbeOrder(jobId, queryId, QueryRequest(protocol, hostname, pathname, port, search)))
  }

  /** The message hands the provider the job id, the query id and every URL part of the
      query, unchanged. */
  lemma DispatchJobMessageRoundTrip(query: Query, jobId: ObjectId)
    ensures DecodeDispatchJob(DispatchJobMessage(query, jobId)) ==
      Some(ProbeOrder(jobId, query.id,
                      QueryRequest(query.protocol, query.hostname, query.pathname, query.port, query.search)))
  {
    var v := DispatchJobMessage(query, jobId);
    assert Get(v, "protocol") == Some(EncodeProtocol(query.protocol));
    assert DecodeProtocol(Get(v, "protocol")) == Some(query.protocol) by {
      if query.protocol == Http { assert EncodeProtocol(query.protocol) == JStr("http"); }
      else { assert EncodeProtocol(query.protocol) == JStr("https"); }
    }
  }
}

=== FILE: records.dfy ===
/** The stored records the core reads besides jobs: providers, API clients and queries. */
module Records {
  import opened Results
  import opened Jobs

  /** The protocol of a probed URL, as the inbound schemas accept it. */
  datatype Protocol = Http | Https

  function ProtocolName(p: Protocol): string {
    match p
    case Http => "http"
    case Https => "https"
  }

  datatype Provider = Provider(
    id: ObjectId,
    userId: ObjectId,
    creationTimestamp: Timestamp,
    token: string,
    name: string)

  datatype ApiClient = ApiClient(
    id: ObjectId,
    userId: ObjectId,
    creationTimestamp: Timestamp,
    token: string,
    name: string)

  /** A submitted URL check; `apiClientId` is `None` for website submissions. */
  datatype Query = Query(
    id: ObjectId,
    timestamp: Timestamp,
    protocol: Protocol,
    apiClientId: Option<ObjectId>,
    hostname: string,
    pathname: string,
    port: Option<int>,
    search: string)
}

=== FILE: results.dfy ===
/** Success-or-error values. Where the program throws an `Error`, the model returns
    `Err(message)` carrying that error's message, which is what the acknowledgement
    callbacks eventually report. */
module Results {

  datatype Option<+T> = None | Some(value: T) {

    predicate IsFailure() {
      None?
    }

    function PropagateFailure<U>(): Option<U>
      requires None?
    {
      None
    }

    function Extract(): T
      requires Some?
    {
      value
    }
  }

  datatype Result<+T> = Ok(value: T) | Err(message: string) {

    predicate IsFailure() {
      Err?
    }

    function PropagateFailure<U>(): Result<U>
      requires Err?
    {
      Err(message)
    }

    function Extract(): T
      requires Ok?
    {
      value
    }

    /** Forgets the error message. */
    function ToOption(): Option<T> {
      match this
      case Ok(v) => Some(v)
      case Err(_) => None
    }
  }
}

=== FILE: schemas.dfy ===
/** The structural validators applied to inbound messages. Each validator accepts an
    object that carries the listed properties with the listed types; extra properties
    are allowed and ignored. Each decoder is paired with an encoder, and the pair is
    characterised exactly: a value decodes to `m` if and only if it extends `m`'s
    encoding. */
module Schemas {
  import opened Results
  import opened Json
  import opened Jobs
  import opened Records

  /** The acknowledgement error for a payload that fails its schema. */
  const SchemaMismatch := "Request does not match schema"

  // ---------------------------------------------------------------- protocol

  function DecodeProtocol(v: Option<Json>): (r: Option<Protocol>)
    ensures r == Some(Http) <==> v == Some(JStr("http"))
    ensures r == Some(Https) <==> v == Some(JStr("https"))
  {
    if v == Some(JStr("http")) then Some(Http)
    else if v == Some(JStr("https")) then Some(Https)
    else None
  }

  function EncodeProtocol(p: Protocol): Json {
    JStr(ProtocolName(p))
  }

  // ------------------------------------------------------------------ result

  function EncodeJobResult(r: JobResult): (v: Json)
    ensures v.JObj? && "state" in v.fields && v.fields["state"] == JStr(ResultTag(r))
  {
    match r
    case ResultSuccess(httpCode, executionTime) =>
      JObj(map["state" := JStr("success"), "httpCode" := JNum(httpCode), "executionTime" := JNum(executionTime)])
    case ResultTimeout(executionTime) =>
      JObj(map["state" := JStr("timeout"), "executionTime" := JNum(executionTime)])
    case ResultError(errorCode) =>
      JObj(map["state" := JStr("error"), "errorCode" := JStr(errorCode)])
  }

  /** The three-way union: tried as success, then timeout, then error. */
  function DecodeJobResult(v: Json): Option<JobResult> {
    if !v.JObj? then None
    else if Get(v, "state") == Some(JStr("success")) && GetNumber(v, "httpCode").Some? && GetNumber(v, "executionTime").Some? then
      Some(ResultSuccess(GetNumber(v, "httpCode").value, GetNumber(v, "executionTime").value))
    else if Get(v, "state") == Some(JStr("timeout")) && GetNumber(v, "executionTime").Some? then
      Some(ResultTimeout(GetNumber(v, "executionTime").value))
    else if Get(v, "state") == Some(JStr("error")) && GetString(v, "errorCode").Some? then
      Some(ResultError(GetString(v, "errorCode").value))
    else None
  }

  lemma {:induction false} DecodeJobResultExact(v: Json, r: JobResult)
    ensures DecodeJobResult(v) == Some(r) <==> Extends(v, EncodeJobResult(r))
  {
    var e := EncodeJobResult(r);
    if DecodeJobResult(v) == Some(r) {
      match r
      case ResultSuccess(h, t) =>
        assert e.fields.Keys == {"state", "httpCode", "executionTime"};
      case ResultTimeout(t) =>
        assert e.fields.Keys == {"state", "executionTime"};
      case ResultError(c) =>
        assert e.fields.Keys == {"state", "errorCode"};
    }
    if Extends(v, e) {
      assert "state" in e.fields;
      match r
      case ResultSuccess(h, t) =>
        assert "httpCode" in e.fields && "executionTime" in e.fields;
      case ResultTimeout(t) =>
        assert "executionTime" in e.fields;
      case ResultError(c) =>
        assert "errorCode" in e.fields;
    }
  }

  // ----------------------------------------------------------- query-api

  datatype ApiQueryMessage = ApiQueryMessage(token: string, protocol: Protocol, host: string, path: string)

  function EncodeApiQuery(m: ApiQueryMessage): Json {
    JObj(map["token" := JStr(m.token), "protocol" := EncodeProtocol(m.protocol),
             "host" := JStr(m.host), "path" := JStr(m.path)])
  }

  function DecodeApiQuery(v: Json): Option<ApiQueryMessage> {
    match (GetString(v, "token"), DecodeProtocol(Get(v, "protocol")), GetString(v, "host"), GetString(v, "path"))
    case (Some(token), Some(protocol), Some(host), Some(path)) => Some(ApiQueryMessage(token, protocol, host, path))
    case _ => None
  }

  lemma {:induction false} DecodeApiQueryExact(v: Json, m: ApiQueryMessage)
    ensures DecodeApiQuery(v) == Some(m) <==> Extends(v, EncodeApiQuery(m))
  {
    var e := EncodeApiQuery(m);
    if Extends(v, e) {
      assert "token" in e.fields && "protocol" in e.fields && "host" in e.fields && "path" in e.fields;
      assert Get(v, "protocol") == Some(EncodeProtocol(m.protocol));
    }
    if DecodeApiQuery(v) == Some(m) {
      assert e.fields.Keys == {"token", "protocol", "host", "path"};
      assert Get(v, "protocol") == Some(EncodeProtocol(m.protocol)) by {
        if m.protocol == Http { assert DecodeProtocol(Get(v, "protocol")) == Some(Http); }
        else { assert DecodeProtocol(Get(v, "protocol")) == Some(Https); }
      }
    }
  }

  // ------------------------------------------------------- query-website

  datatype WebsiteQueryMessage = WebsiteQueryMessage(protocol: Protocol, host: string, path: string)

  function EncodeWebsiteQuery(m: WebsiteQueryMessage): Json {
    JObj(map["protocol" := EncodeProtocol(m.protocol), "host" := JStr(m.host), "path" := JStr(m.path)])
  }

  function DecodeWebsiteQuery(v: Json): Option<WebsiteQueryMessage> {
    match (DecodeProtocol(Get(v, "protocol")), GetString(v, "host"), GetString(v, "path"))
    case (Some(protocol), Some(host), Some(path)) => Some(WebsiteQueryMessage(protocol, host, path))
    case _ => None
  }

  lemma {:induction false} DecodeWebsiteQueryExact(v: Json, m: WebsiteQueryMessage)
    ensures DecodeWebsiteQuery(v) == Some(m) <==> Extends(v, EncodeWebsiteQuery(m))
  {
    var e := EncodeWebsiteQuery(m);
    if Extends(v, e) {
      assert "protocol" in e.fields && "host" in e.fields && "path" in e.fields;
      assert Get(v, "protocol") == Some(EncodeProtocol(m.protocol));
    }
    if DecodeWebsiteQuery(v) == Some(m) {
      assert e.fields.Keys == {"protocol", "host", "path"};
      assert Get(v, "protocol") == Some(EncodeProtocol(m.protocol)) by {
        if m.protocol == Http { assert DecodeProtocol(Get(v, "protocol")) == Some(Http); }
        else { assert DecodeProtocol(Get(v, "protocol")) == Some(Https); }
      }
    }
  }

  /** A query-api payload also satisfies the query-website schema: the two differ only
      by the token. */
  lemma ApiQueryIsWebsiteQuery(v: Json)
    requires DecodeApiQuery(v).Some?
    ensures DecodeWebsiteQuery(v) == Some(WebsiteQueryMessage(
      DecodeApiQuery(v).value.protocol, DecodeApiQuery(v).value.host, DecodeApiQuery(v).value.path))
  {
  }

  // ----------------------------------------- single string property schemas

  /** Schemas of the form `{ key: string }`: `get-query` (`queryId`), the provider's
      accept, reject and cancel messages (`jobId`), the hostname query (`hostname`) and
      the provider handshake (`token`). */
  function EncodeStringField(key: string, s: string): Json {
    JObj(map[key := JStr(s)])
  }

  function DecodeStringField(v: Json, key: string): Option<string> {
    if v.JObj? then GetString(v, key) else None
  }

  lemma {:induction false} DecodeStringFieldExact(v: Json, key: string, s: string)
    ensures DecodeStringField(v, key) == Some(s) <==> Extends(v, EncodeStringField(key, s))
  {
    var e := EncodeStringField(key, s);
    if Extends(v, e) {
      assert key in e.fields;
    }
  }

  // ------------------------------------------------------ complete-job

  datatype CompleteMessage = CompleteMessage(jobId: string, result: JobResult)

  function EncodeComplete(m: CompleteMessage): Json {
    JObj(map["jobId" := JStr(m.jobId), "result" := EncodeJobResult(m.result)])
  }

  function DecodeComplete(v: Json): Option<CompleteMessage> {
    match (GetString(v, "jobId"), Get(v, "result"))
    case (Some(jobId), Some(result)) =>
      (match DecodeJobResult(result)
       case Some(r) => Some(CompleteMessage(jobId, r))
       case None => None)
    case _ => None
  }

  /** The nested result may itself carry extra properties. */
  lemma {:induction false} DecodeCompleteExact(v: Json, m: CompleteMessage)
    ensures DecodeComplete(v) == Some(m) <==>
      && GetString(v, "jobId") == Some(m.jobId)
      && Get(v, "result").Some?
      && Extends(Get(v, "result").value, EncodeJobResult(m.result))
  {
    if Get(v, "result").Some? {
      DecodeJobResultExact(Get(v, "result").value, m.result);
    }
  }

  lemma ProviderMessagesRoundTrip(m: CompleteMessage, key: string, s: string)
    ensures DecodeComplete(EncodeComplete(m)) == Some(m)
    ensures DecodeStringField(EncodeStringField(key, s), key) == Some(s)
  {
    DecodeJobResultExact(EncodeJobResult(m.result), m.result);
  }
}

=== FILE: transitions.dfy ===
/** How the dispatcher rebuilds a job when its provider acts on it or disconnects.
    Every rebuild copies the base fields and replaces the per-state part. Only
    cancel and complete look at the current state; accept and reject
    rebuild from any state. */
module Transitions {
  import opened Results
  import opened Jobs

  const NotAccepted := "Job state is not accepted"
  const NotAcceptedOrCanceled := "Job state is not accepted or canceled"

  /** A provider-initiated event. */
  datatype Action =
    | AcceptAction
    | RejectAction
    | CancelAction
    | CompleteAction(result: JobResult)

  /** The job rebuilt with the base fields of `job` and the per-state part `s`. */
  function Rebuild(job: Job, s: JobState): (r: Job)
    ensures SameBase(job, r) && r.state == s
  {
    Job(job.id, job.providerId, job.queryId, job.dispatchTimestamp,
        job.countryCode, job.regionCode, job.ispName, s)
  }

  /** Accepting stamps a fresh accept time; no state is refused. */
  function Accept(job: Job, now: Timestamp): (r: Job)
    ensures SameBase(job, r)
    ensures r.state.Accepted? && AcceptTime(r.state) == Some(now)
  {
    Rebuild(job, Accepted(now))
  }

  /** Rejecting stamps a reject time and drops any accept time; no state is refused. */
  function Reject(job: Job, now: Timestamp): (r: Job)
    ensures SameBase(job, r)
    ensures r.state == Rejected(now) && AcceptTime(r.state) == None
  {
    Rebuild(job, Rejected(now))
  }

  /** Canceling is allowed only from `accepted` and keeps the accept time. */
  function Cancel(job: Job, now: Timestamp): (r: Result<Job>)
    ensures r.Ok? <==> job.state.Accepted?
    ensures r.Err? ==> r.message == NotAccepted
    ensures r.Ok? ==> SameBase(job, r.value) && r.value.state.Canceled?
    ensures r.Ok? ==> AcceptTime(r.value.state) == AcceptTime(job.state)
    ensures r.Ok? ==> r.value.state.cancelTimestamp == now
  {
    if !job.state.Accepted? then Err(NotAccepted)
    else Ok(Rebuild(job, Canceled(job.state.acceptTimestamp, now)))
  }

  /** Completing is allowed from `accepted` and from `canceled`, keeps the accept time
      and stores the provider's result as given. */
  function Complete(job: Job, now: Timestamp, result: JobResult): (r: Result<Job>)
    ensures r.Ok? <==> job.state.Accepted? || job.state.Canceled?
    ensures r.Err? ==> r.message == NotAcceptedOrCanceled
    ensures r.Ok? ==> SameBase(job, r.value) && r.value.state.Completed?
    ensures r.Ok? ==> AcceptTime(r.value.state) == AcceptTime(job.state)
    ensures r.Ok? ==> r.value.state.completeTimestamp == now && r.value.state.result == result
  {
    if !job.state.Accepted? && !job.state.Canceled? then Err(NotAcceptedOrCanceled)
    else Ok(Rebuild(job, Completed(job.state.acceptTimestamp, now, result)))
  }

  /** What disconnect recovery does to one job of the disconnecting provider:
      `accepted` becomes `canceled` (keeping the accept time), `dispatched` becomes
      `rejected`, and every other job is left alone (`None`). */
  function Recover(job: Job, now: Timestamp): (r: Option<Job>)
    ensures r.Some? <==> job.state.Accepted? || job.state.Dispatched?
    ensures r.Some? ==> SameBase(job, r.value)
    ensures job.state.Accepted? ==> r == Some(job.(state := Canceled(job.state.acceptTimestamp, now)))
    ensures job.state.Dispatched? ==> r == Some(job.(state := Rejected(now)))
  {
    match job.state
    case Accepted(acceptTimestamp) => Some(Rebuild(job, Canceled(acceptTimestamp, now)))
    case Dispatched => Some(Rebuild(job, Rejected(now)))
    case _ => None
  }

  /** The rebuild a provider event asks for. */
  function Apply(job: Job, action: Action, now: Timestamp): (r: Result<Job>)
    ensures r.Ok? ==> SameBase(job, r.value)
  {
    match action
    case AcceptAction => Ok(Accept(job, now))
    case RejectAction => Ok(Reject(job, now))
    case CancelAction => Cancel(job, now)
    case CompleteAction(result) => Complete(job, now, result)
  }

  /** The intended job lifecycle: `dispatched` may be accepted or rejected, `accepted`
      may be canceled or completed, `canceled` may still be completed, and `rejected`
      and `completed` are final. The dispatcher enforces only the cancel and complete rows
      of this relation. */
  predicate LifecycleAllows(from: JobState, action: Action) {
    match action
    case AcceptAction => from.Dispatched?
    case RejectAction => from.Dispatched?
    case CancelAction => from.Accepted?
    case CompleteAction(_) => from.Accepted? || from.Canceled?
  }

  /** The guarded events, cancel and complete, succeed exactly where the intended
      lifecycle allows them. */
  lemma GuardedActionsMatchLifecycle(job: Job, action: Action, now: Timestamp)
    requires action.CancelAction? || action.CompleteAction?
    ensures Apply(job, action, now).Ok? <==> LifecycleAllows(job.state, action)
  {
  }

  /** Accept and reject have no guard: they succeed from every state, so the code
      allows strictly more than the intended lifecycle (for example re-accepting a completed
      job, which discards its result). */
  lemma UnguardedActionsExceedLifecycle(job: Job, action: Action, now: Timestamp)
    requires action.AcceptAction? || action.RejectAction?
    ensures Apply(job, action, now).Ok?
    ensures !job.state.Dispatched? ==> !LifecycleAllows(job.state, action)
    ensures job.state.Completed? && action.AcceptAction? ==>
      Apply(job, action, now).value.state == Accepted(now)
  {
  }

  /** Whatever succeeds agrees with the intended lifecycle on the target state: no event
      ever leads back to `dispatched`, and each event lands in its own state. */
  lemma ActionsNeverReenterDispatched(job: Job, action: Action, now: Timestamp)
    ensures Apply(job, action, now).Ok? ==> !Apply(job, action, now).value.state.Dispatched?
    ensures Recover(job, now).Some? ==> !Recover(job, now).value.state.Dispatched?
    ensures Apply(job, action, now).Ok? ==>
      StateTag(Apply(job, action, now).value.state) ==
        (match action
         case AcceptAction => "accepted"
         case RejectAction => "rejected"
         case CancelAction => "canceled"
         case CompleteAction(_) => "completed")
  {
  }

  /** A job cannot jump from `dispatched` straight to `completed`, and a `rejected` or
      `completed` job cannot be completed. */
  lemma NoCompletionWithoutAcceptance(job: Job, result: JobResult, now: Timestamp)
    requires job.state.Dispatched? || job.state.Rejected? || job.state.Completed?
    ensures Complete(job, now, result) == Err(NotAcceptedOrCanceled)
  {
  }

  /** Disconnect recovery follows the intended lifecycle's automatic
      transitions: an unanswered job is rejected and an accepted one canceled. */
  lemma RecoveryMatchesLifecycle(job: Job, now: Timestamp)
    ensures job.state.Dispatched? ==> Recover(job, now) == Some(Reject(job, now))
    ensures job.state.Accepted? ==> Recover(job, now) == Cancel(job, now).ToOption()
  {
  }
}
